=== FILE: README.md ===
# Orders listing queries — a Dafny model

This project models the orders listing of a small catalog-and-orders backend.
The listing answers a request that has four parameters: `search`, `start`,
`length` and `sort`. Each arrives as the raw request string, or as `None` when
absent (retrofun/routes.py:21-24). Two queries produce the answer:

- `paginated_orders` lists orders with their computed totals. Each order is
  joined to its customer, its line items and their products, then filtered by
  the search, grouped per order, and ordered by the sort string.
- `total_orders` counts the orders that match the same search.

The model gives both queries their meaning over a state of the storage, in
pure functions over sequences. It also models the four entities the queries
read (customers, products, orders, line items), their key, uniqueness and
foreign-key constraints, and the `to_dict` serialisers that turn a listed
order into JSON.

Modules, one per file:

- `Wrappers`: the `Option` and `Result` types.
- `Text`: the string operations the code relies on. These are ASCII case
  folding, substring occurrence, Python's `str.split` on one separator with its
  inverse `Join`, and code-point string order.
- `SqlLike`: SQL `LIKE`/`ILIKE` pattern matching. `%` matches any run of
  characters and `_` matches exactly one.
- `Hex`: the 32-digit lower-case hexadecimal form of a UUID (`uuid.hex`).
- `Json`: the dict and list values the serialisers build.
- `Models`: the entities, the storage constraints and the relationship lookups.
  A `Database` is a state in which every constraint holds.
- `Serialize`: the `to_dict` serialisers, and decoders that read the dicts back.
- `SortSpec`: parsing of the `sort` string into ORDER BY keys.
- `Ordering`: the result row, the multi-key comparator, and a sort.
- `PyInt`: which strings Python's `int()` accepts. It skips ASCII tab to
  carriage return, the space, and the Unicode white space above U+007F, but
  not the separators U+001C to U+001F. It converts at most 4300 digits, the
  default limit on integer string conversion. `offset()` and `limit()` pass
  `start` and `length` through it.
- `Queries`: the two queries.
- `QueryExamples`: one worked order, used to show how totals behave under a search.

Choices made in the model:

- An absent `search` or `sort` is the empty string. The code tests both with
  Python truthiness, so `None` and `""` behave the same.
- A listing query's result is given by `Queries.Execute`: any
  arrangement of the grouped rows that the ORDER BY keys allow.
  `Queries.IsListing` states that property, so ties may come in any order.
- `unit_price` is an integer number of cents. A timestamp is an integer.
- A line item's products and the order's customer are found through the
  foreign keys. Because the constraints hold, every order has exactly one
  customer and every item has exactly one product.

Where the code and its own comments disagree, the model follows the code. The
comment describing the listing's parameters (retrofun/queries.py:22-27) is a
bare string statement inside `total_orders`, after its `return`; it is not a
docstring of `paginated_orders`.

- No default ordering. The code has a fallback to timestamp descending
  (retrofun/queries.py:63-64), but it sits behind `if not Order`. A class is
  never false, so the fallback never runs, and an absent sort orders nothing.
- No pagination. The comment says `start` and `length` select a page. The code
  builds `q.offset(start).limit(length)` and discards the result
  (retrofun/queries.py:69). The call still converts both arguments with
  `int()`. So a present `start` or `length` that `int()` rejects makes
  `paginated_orders` raise `ValueError`, and an absent one (`None`) or an
  integer string changes nothing. The returned query depends on `search` and
  `sort` alone (`Queries.PaginatedOrders`, `Queries.PageIgnored`).

Other behaviour of the code that the model keeps:

- The first character of a sort token is always its direction. The comment's
  examples, `+customer` and `-total`, carry explicit signs. The code takes the
  first character as the direction whatever it is, and only `-` descends. So
  `total` names the field `otal` and is rejected.
- Totals under a product search are partial. The WHERE clause filters join
  rows before GROUP BY, so when a search matches only some product names of an
  order, its total sums just those items (`Queries.ProductSearchTotal`). For
  Alice, with Zed 10×2 and Amber 5×1, the search "Zed" gives 20, not 25
  (`QueryExamples.ProductSearchPartialTotal`). With no search, or when the
  customer's name matches, the total is the full order total
  (`Queries.TotalIsOrderTotal`).
- Sorting by `status` fails. `status` is on the allow-list, but `Order` has no
  such attribute, so the lookup fails with an attribute error.

## Model

| member | source | states |
|---|---|---|
| Text.Split | retrofun/queries.py:46 | `sort.split(',')` gives at least one piece, no piece contains a comma, and joining the pieces with commas gives back the input |
| Text.SplitJoin | retrofun/queries.py:46 | splitting inverts joining: comma-free tokens joined by commas split back into exactly those tokens |
| SortSpec.ResolveField | retrofun/queries.py:50-57 | a field name resolves exactly when it is customer, total, timestamp or id; `status` fails with a missing-attribute error and any other name with `Invalid value for sort: <name>` |
| SortSpec.ResolveFieldName | retrofun/queries.py:50-57 | each sortable field is reached by exactly one name |
| SortSpec.ParseToken | retrofun/queries.py:46-61 | an empty token fails on its first character; otherwise the token succeeds exactly when its remainder after the first character resolves, fails with that remainder's resolution error when it does not, and the key is descending exactly when that first character is `-` |
| SortSpec.ParseTokens | retrofun/queries.py:46-61 | parsing succeeds exactly when every token parses, yielding one key per token in token order; a failure carries the error of the first bad token, all before it having parsed |
| SortSpec.ParseSort | retrofun/queries.py:43-66 | an empty sort gives no keys (no default order); a non-empty one that parses gives one key per comma-separated token, in order, descending exactly for a leading `-` |
| SortSpec.ParseSortFirstError | retrofun/queries.py:46-57 | a rejected sort string is rejected with the error of its first bad token |
| SortSpec.UnsignedTokenRejected | retrofun/queries.py:47-57 | the unsigned token `total` loses its first letter and is rejected as `otal` |
| SortSpec.TrailingCommaRejected | retrofun/queries.py:46-47 | a trailing comma leaves an empty token, which fails on its first character |
| SortSpec.StatusRejected | retrofun/queries.py:45-55 | `-status` passes the allow-list but fails, since orders have no status |
| SortSpec.DescendingTotal | retrofun/queries.py:52-61 | `-total` asks for the total, descending |
| SortSpec.TwoTokens | retrofun/queries.py:46-61 | two parsable comma-free tokens joined by a comma give their two keys in order |
| SortSpec.ParseRenderSort | retrofun/queries.py:43-66 | every list of keys can be requested: parsing the canonical sort string for the keys gives them back |
| Text.LessTransitive | retrofun/queries.py:51 | the string order used for customer names is transitive |
| Text.LessTrichotomy | retrofun/queries.py:51 | any two distinct names are ordered one way or the other |
| Ordering.CompareAntisymmetric | retrofun/queries.py:59-66 | the multi-key ORDER BY comparison, where the first key that tells two rows apart decides, is antisymmetric: swapping the rows negates it |
| Ordering.CompareFlip | retrofun/queries.py:59-60 | reversing every key's direction compares the rows the other way round |
| Ordering.LeqTransitive | retrofun/queries.py:66 | the multi-key ORDER BY comparison is transitive |
| Ordering.LeqTotal | retrofun/queries.py:66 | any two rows are comparable under the ORDER BY keys |
| Ordering.SortRows | retrofun/queries.py:66 | sorting yields the same rows with the same multiplicities, ordered by the keys |
| Ordering.SortedReverse | retrofun/queries.py:59-61 | rows are in order for some keys exactly when their reverse is in order for the keys with every direction flipped |
| Ordering.SortedByLeadingKey | retrofun/queries.py:66 | rows in order are ordered by the first key, and rows tied on it are ordered by the remaining keys |
| SqlLike.ILikeSurroundIsOccurs | retrofun/queries.py:37-40 | for search text without `%` or `_`, `ILIKE '%search%'` holds exactly when the search occurs in the text, ignoring ASCII letter case |
| SqlLike.PrefixPattern | retrofun/queries.py:39 | for a prefix without `%` or `_`, the pattern of that prefix followed by `%` matches exactly the texts that start with it |
| Hex.UuidHex | retrofun/models.py:169 | a customer id is written as 32 hex digits that read back as the id |
| Models.DatabaseConstraints | retrofun/models.py:51-182 | in every storage state, rows that agree on a primary key (customer, product and order ids; the item's product and order pair) or on a unique name are the same row, and every order's customer, item's product and item's order exists |
| Models.OrderIdsUnique | retrofun/models.py:127 | two stored orders with one id are the same order |
| Models.ItemKeysUnique | retrofun/models.py:179-182 | two stored line items with one product and order are the same item |
| Models.FindCustomerUnique | retrofun/models.py:152 | the customer key finds exactly that customer |
| Models.FindProductUnique | retrofun/models.py:54 | the product key finds exactly that product |
| Models.OrderHasOneCustomer | retrofun/models.py:130-133 | every order has a customer, and exactly one: any stored customer with that key is the one the lookup finds |
| Models.ItemHasOneProduct | retrofun/models.py:179-180 | every line item has exactly one product |
| Models.CustomerNamesUnique | retrofun/models.py:153-154 | two stored customers with the same name are the same customer |
| Models.ProductNamesUnique | retrofun/models.py:55-56 | two stored products with the same name are the same product |
| Models.OneItemPerProduct | retrofun/models.py:179-182 | an order's line items name distinct products |
| Models.ItemsOf | retrofun/models.py:134-135 | an order's item collection holds exactly the stored items with that order id |
| Models.Load | retrofun/models.py:132-135 | loading an order follows its relationships to stored rows, with one loaded line per item of the order, in table order |
| Serialize.CustomerToDict | retrofun/models.py:167-173 | the customer dict has exactly the keys id, name, address and phone; id is the hex form and an absent address or phone is `None` |
| Serialize.CustomerRoundTrip | retrofun/models.py:167-173 | the customer dict loses nothing: it decodes back to the same customer |
| Serialize.ProductToDict | retrofun/models.py:75-83 | the product dict has exactly the keys id, name, manufacturer, year, cpu and countries, and holds the product's id |
| Serialize.ProductDictFields | retrofun/models.py:75-83 | the product dict holds the id, name, year, the cpu (`None` when absent), the manufacturer's dict and the list of country dicts |
| Serialize.ProductRoundTrip | retrofun/models.py:75-83 | the product dict loses nothing: it decodes back to the same product |
| Serialize.OrderItemToDict | retrofun/models.py:194-199 | the line-item dict has exactly the keys product, quantity and unit_price, with the nested product dict and quantity and price unchanged |
| Serialize.OrderItemRoundTrip | retrofun/models.py:194-199 | the line-item dict decodes back to the same line item |
| Serialize.ItemDicts | retrofun/models.py:145 | one dict per line item, in the same order |
| Serialize.OrderToDict | retrofun/models.py:140-146 | the order dict has exactly the keys id, timestamp, customer and order_items, and no total |
| Serialize.OrderDictFields | retrofun/models.py:140-146 | the order dict holds the id, the timestamp, the customer's dict and one dict per line item in order |
| Serialize.OrderRoundTrip | retrofun/models.py:140-146 | the order dict decodes back to the order, its customer and all its line items in order |
| Serialize.SerializedOrder | retrofun/models.py:132-146 | serialising a stored order keeps the order, its customer and exactly its stored line items |
| Queries.JoinRowsOf | retrofun/queries.py:33-34 | an order's join rows are one per line item, in order, each satisfying the join conditions, all with the same customer |
| Queries.JoinRowsOfMembers | retrofun/queries.py:33-34 | a row is in the join exactly when it is made of stored rows that the join conditions connect |
| Queries.SearchClauseIsOccurs | retrofun/queries.py:38-40 | the search condition, the OR of the two `ILIKE '%search%'` tests, holds for wildcard-free text exactly when the customer's or the product's name contains it, ignoring case |
| Queries.Where | retrofun/queries.py:37-40 | an empty search adds no WHERE clause and keeps every row; a non-empty one keeps exactly the rows that pass the search condition |
| Queries.SumLinesAppend | retrofun/queries.py:32 | the sum of quantity times unit price over rows in two parts is the sum of the two parts' sums |
| Queries.Group | retrofun/queries.py:32-34 | GROUP BY of one order's surviving rows gives a row exactly when some row survives, carrying that order and the customer of its rows |
| Queries.GroupSplit | retrofun/queries.py:32-34 | the grouped total of rows in two parts is the sum of both parts' totals |
| Queries.Filter | retrofun/queries.py:37-40 | the WHERE clause keeps exactly the join rows whose customer name or product name is `ILIKE '%search%'` |
| Queries.GroupRow | retrofun/queries.py:32-34 | an order's grouped row, when there is one, carries that order and its stored customer |
| Queries.GroupedMembers | retrofun/queries.py:33-34 | GROUP BY keeps a row for each order with surviving join rows and makes up none |
| Queries.ListingRows | retrofun/queries.py:32-40 | the listing has at most one row per order: no two rows share an order id, so there are never more rows than orders |
| Queries.PaginatedOrders | retrofun/queries.py:30-71 | building the listing query succeeds exactly when the sort string parses and each of start and length is absent or a string `int()` accepts, which excludes more than 4300 digits; a sort error comes first, then a bad start, then a bad length; on success the query carries the search and the parsed keys |
| Queries.PageIgnored | retrofun/queries.py:68-71 | a start and length that `int()` accepts leave the query exactly as with neither |
| Queries.NonNumericPageRejected | retrofun/queries.py:69 | a present start with no digit in it, the empty string included, makes building the query raise `ValueError` |
| Queries.TooLongPageRejected | retrofun/queries.py:69 | a start of more than 4300 digits makes building the query raise `ValueError` |
| Queries.SeparatorPageRejected | retrofun/queries.py:69 | a start led by one of U+001C to U+001F, which `int()` does not skip, makes building the query raise `ValueError` |
| PyInt.SeparatorRejected | retrofun/queries.py:69 | a string led by one of U+001C to U+001F is rejected |
| PyInt.Strip | retrofun/queries.py:69 | the white space `int()` skips is cut from both ends: what remains is a slice of the input, everything before and after it is white space, and it neither starts nor ends with white space |
| PyInt.DigitRunIsUnderscored | retrofun/queries.py:69 | the digits accepted after the sign are exactly the non-empty strings of digits and underscores that begin and end with a digit and never have two underscores in a row |
| PyInt.IntLiteralIsUnderscored | retrofun/queries.py:69 | `int()` accepts a string exactly when, stripped and less an optional sign, it is digits and underscores with a digit at each end and no two underscores in a row, and it holds at most 4300 digits |
| PyInt.DigitsAccepted | retrofun/queries.py:69 | any string of 1 to 4300 decimal digits is accepted |
| PyInt.TooManyDigitsRejected | retrofun/queries.py:69 | a run of more than 4300 digits is rejected |
| PyInt.NoDigitRejected | retrofun/queries.py:69 | a string with no decimal digit, the empty string included, is rejected |
| PyInt.SpacedDigitsAccepted | retrofun/queries.py:69 | white space around a run of 1 to 4300 digits is skipped, where white space is ASCII tab to carriage return, the space, and the Unicode white space above U+007F |
| PyInt.UnderscoreAccepted | retrofun/queries.py:69 | one underscore between two runs of digits, 4300 digits at most in all, is accepted |
| PyInt.DoubleUnderscoreRejected | retrofun/queries.py:69 | any string with two underscores in a row, at any position, is rejected |
| Queries.Execute | retrofun/queries.py:30-71 | running a listing query yields exactly its grouped rows, in an order its keys allow |
| Queries.TotalOrders | retrofun/queries.py:13-19 | the count query counts every order exactly when the search is empty, and otherwise counts distinct matching orders for that search |
| Queries.Count | retrofun/queries.py:13-19 | counting all orders gives the number of orders; counting distinct matching orders gives zero exactly when no join row passes the search condition |
| Queries.ListedIffSearchHit | retrofun/queries.py:37-40 | for wildcard-free search text, an order is listed exactly when some line item of it has a customer or product name containing the search, ignoring case |
| Queries.ListedIffHasItems | retrofun/queries.py:33-34 | with no search, an order is listed exactly when it has a line item; orders without items are never listed |
| Queries.ListingRowsStored | retrofun/queries.py:33 | every listed row is a stored order with its stored customer |
| Queries.EmptySearchListing | retrofun/queries.py:32-34 | with no search, each order with line items is listed, with its full total |
| Queries.TotalIsOrderTotal | retrofun/queries.py:32 | with no search, or when the search matches the customer's name, a row's total is the sum of quantity times unit price over all the order's items |
| Queries.ProductSearchTotal | retrofun/queries.py:32-40 | when a wildcard-free search is not in the customer's name, the order is listed exactly when some item's product name contains it, and the total then sums just those items |
| Queries.CustomerMatchKeepsAllRows | retrofun/queries.py:37-40 | when the search matches the customer's name, the filter keeps every join row of the order |
| Queries.MatchingIdsAreListed | retrofun/queries.py:18 | the distinct order ids among matching join rows are exactly the ids of the listed rows |
| Queries.SearchCountMatchesListing | retrofun/queries.py:13-19 | with a search, the count equals the number of listed rows |
| Queries.ListingSizeIsCount | retrofun/queries.py:13-19 | any answer to a listing query with a search has as many rows as the count query reports |
| Queries.EmptySearchCount | retrofun/queries.py:13-16 | with no search, the count is the number of orders, at least the number of listed rows, and equal to it exactly when every order has a line item |
| Queries.SearchCountBound | retrofun/queries.py:18 | with a search, the count never exceeds the number of orders |
| Queries.GroupedIsPresent | retrofun/queries.py:33-34 | GROUP BY yields, in order, the groups of the orders that have one |
| Queries.GroupedAll | retrofun/queries.py:33-34 | a group is kept for every order exactly when no order loses all its join rows |
| Queries.LeadingTotalDescending | retrofun/queries.py:52-61 | a query whose first key is the total, descending, lists rows from the largest total down |
| Queries.SortByTotalDescending | retrofun/queries.py:43-69 | `sort=-total` builds the query ordered by total descending, whatever start and length `int()` accepts |
| Queries.TotalThenCustomerOrder | retrofun/queries.py:50-66 | keys total-descending then customer-ascending order rows by total, largest first, and rows with equal totals by customer name |
| QueryExamples.CustomerSearchFullTotal | retrofun/queries.py:32-40 | searching Alice's name lists her order with its full total, 25 |
| QueryExamples.ProductSearchPartialTotal | retrofun/queries.py:32-40 | searching "Zed" lists Alice's order with total 20, the Zed item alone, though the order's total is 25 |
| QueryExamples.UnmatchedSearchOmitsOrder | retrofun/queries.py:37-40 | a wildcard-free search leaves Alice's order out exactly when neither her name nor either product name contains it, ignoring case |
| QueryExamples.KimOmitsOrder | retrofun/queries.py:37-40 | the search "Kim" leaves Alice's order out |
| QueryExamples.PartialTotalInDatabase | retrofun/queries.py:32-40 | in any database where the order joins to Alice's two items, the "Zed" listing row has total 20 against an order total of 25 |

## Left out

- The Flask route, request-argument extraction, session handling and JSON response assembly (`retrofun/routes.py`): HTTP and database plumbing. The model takes the four request arguments as its inputs.
- Application bootstrap and configuration (`retrofun/app.py`), plus `init_db`, the engine and session globals and `load_dotenv` (retrofun/models.py:11-25): I/O and global mutable state.
- SQL text generation, SQLAlchemy join mechanics, eager and lazy loading strategies, and naming conventions. The model gives the relational meaning of the queries only.
- `unit_price` is a float in the source. The model uses exact integers (cents), so float rounding in the sum is not modelled.
- `timestamp.isoformat()`: a timestamp is an integer carried into the dict as a timestamp value. Its ISO-8601 rendering is not modelled.
- The `uuid4` and `datetime.now` column defaults: nondeterministic. Ids and timestamps are inputs.
- Manufacturer, Country, review and blog entities. A product's manufacturer and countries are carried already rendered as JSON values, because the queries never inspect them.
- Column length limits (`String(32)`, `String(64)`, `String(128)`): the model's strings are unbounded.
- Collation and database-specific matching. Names are ordered by code point. `ILIKE` folds ASCII letters only. `LIKE`'s backslash escape is not modelled, so a backslash is an ordinary character.
- PaginatedOrders: the 4300-digit limit on `int()` is taken at its default. It can be changed (`PYTHONINTMAXSTRDIGITS`, `-X int_max_str_digits`, `sys.set_int_max_str_digits`; 0 removes it), and Python releases before the limit was introduced have none.
- Python's `int()` also accepts decimal digits from other Unicode scripts (Arabic-Indic digits, say); the model accepts ASCII digits only.
- `offset()` and `limit()` are taken to pass `None` through and to convert anything else with `int()`; SQLAlchemy's own code is not part of this model.
- The order of rows that tie on every ORDER BY key, and of rows when there is no sort: SQL leaves it open, and `Queries.IsListing` allows any such order.
- The order of an order's `order_items` collection: the model takes table order.
- Consistency between the count and the listing under concurrent writes: the model evaluates both queries on one database state.
- The `if not Order` fallback to timestamp-descending: it can never run, so it is documented on `SortSpec.ParseSort` and not modelled as a branch.

=== FILE: hex.dfy ===
/** `UUID.hex`: the 128-bit value as 32 lower-case hexadecimal digits, most significant first. */
module Hex {
  import opened Wrappers

  /** A UUID is written with this many hexadecimal digits. */
  const UuidDigits: nat := 32

  /** The number of 128-bit values: a UUID is below it. */
  const UuidBound: nat := 0x1_0000_0000_0000_0000_0000_0000_0000_0000

  function Pow16(n: nat): (r: nat)
  {
    if n == 0 then 1 else 16 * Pow16(n - 1)
  }

  function Digit(d: nat): (c: char)
    requires d < 16
    ensures '0' <= c <= '9' || 'a' <= c <= 'f'
  {
    if d < 10 then ('0' as int + d) as char else ('a' as int + d - 10) as char
  }

  function DigitValue(c: char): Option<nat> {
    if '0' <= c <= '9' then Some(c as int - '0' as int)
    else if 'a' <= c <= 'f' then Some(c as int - 'a' as int + 10)
    else None
  }

  /** The `n` least significant hexadecimal digits of `u`, most significant first. */
  function Render(u: nat, n: nat): (r: string)
    ensures |r| == n
    ensures forall i :: 0 <= i < n ==> DigitValue(r[i]).Some?
  {
    if n == 0 then [] else Render(u / 16, n - 1) + [Digit(u % 16)]
  }

  /** Reads a string of lower-case hexadecimal digits back into a number. */
  function Parse(s: string): Option<nat> {
    if |s| == 0 then Some(0)
    else
      match (Parse(s[..|s| - 1]), DigitValue(s[|s| - 1]))
      case (Some(v), Some(d)) => Some(16 * v + d)
      case _ => None
  }

  lemma {:induction false} Pow16Add(a: nat, b: nat)
    ensures Pow16(a + b) == Pow16(a) * Pow16(b)
    decreases a
  {
    if a > 0 {
      Pow16Add(a - 1, b);
    }
  }

  lemma UuidBoundDigits()
    ensures Pow16(UuidDigits) == UuidBound
  {
    assert Pow16(4) == 0x1_0000;
    Pow16Add(4, 4);
    Pow16Add(8, 8);
    Pow16Add(16, 16);
  }

  /** `UUID.hex`: 32 hexadecimal digits that read back as the UUID. */
  function UuidHex(u: nat): (r: string)
    requires u < UuidBound
    ensures |r| == UuidDigits
    ensures Parse(r) == Some(u)
  {
    UuidBoundDigits();
    ParseRender(u, UuidDigits);
    Render(u, UuidDigits)
  }

  lemma DivBound(u: nat, n: nat)
    requires u < Pow16(n + 1)
    ensures u / 16 < Pow16(n)
  {
  }

  /** Rendering a value that fits in `n` digits loses nothing: parsing gives it back. */
  lemma {:induction false} ParseRender(u: nat, n: nat)
    requires u < Pow16(n)
    ensures Parse(Render(u, n)) == Some(u)
  {
    if n > 0 {
      var r := Render(u, n);
      DivBound(u, n - 1);
      ParseRender(u / 16, n - 1);
      assert r[..|r| - 1] == Render(u / 16, n - 1);
      assert DigitValue(r[|r| - 1]) == Some(u % 16);
    }
  }
}

=== FILE: json.dfy ===
/** The JSON-shaped values the `to_dict` serialisers build. */
module Json {
  import opened Wrappers

  datatype Value =
    | Null
    | Int(i: int)
    | Str(s: string)
    | UuidValue(u: nat)     // a UUID object placed in the dict as is
    | Timestamp(t: int)     // a datetime rendered through `isoformat()`
    | Array(elems: seq<Value>)
    | Object(keys: seq<string>, vals: seq<Value>)  // a dict: keys in insertion order, value i under key i

  /** The value a dict stores under a key, if it has that key. */
  function Get(v: Value, key: string): (r: Option<Value>)
    ensures v.Object? && |v.keys| == |v.vals| ==> (r.Some? <==> key in v.keys)
  {
    if v.Object? then Lookup(v.keys, v.vals, key) else None
  }

  function Lookup(keys: seq<string>, vals: seq<Value>, key: string): (r: Option<Value>)
    ensures |keys| == |vals| ==> (r.Some? <==> key in keys)
  {
    if |keys| == 0 || |vals| == 0 then None
    else if keys[0] == key then Some(vals[0])
    else Lookup(keys[1..], vals[1..], key)
  }

  /** In a dict whose keys are distinct, each key finds its own value. */
  lemma {:induction false} LookupAt(keys: seq<string>, vals: seq<Value>, i: nat)
    requires i < |keys| == |vals|
    requires forall j | 0 <= j < i :: keys[j] != keys[i]
    ensures Lookup(keys, vals, keys[i]) == Some(vals[i])
  {
    if i > 0 {
      LookupAt(keys[1..], vals[1..], i - 1);
    }
  }

  lemma Dict4(k0: string, k1: string, k2: string, k3: string, v0: Value, v1: Value, v2: Value, v3: Value)
    requires k0 != k1 && k0 != k2 && k0 != k3 && k1 != k2 && k1 != k3 && k2 != k3
    ensures var d := Object([k0, k1, k2, k3], [v0, v1, v2, v3]);
      Get(d, k0) == Some(v0) && Get(d, k1) == Some(v1) && Get(d, k2) == Some(v2) && Get(d, k3) == Some(v3)
  {
    var ks := [k0, k1, k2, k3];
    var vs := [v0, v1, v2, v3];
    LookupAt(ks, vs, 0);
    LookupAt(ks, vs, 1);
    LookupAt(ks, vs, 2);
    LookupAt(ks, vs, 3);
  }

  /** In a dict whose keys are distinct, every key finds its own value. */
  lemma DictLookups(keys: seq<string>, vals: seq<Value>)
    requires |keys| == |vals|
    requires forall i, j | 0 <= i < j < |keys| :: keys[i] != keys[j]
    ensures forall i | 0 <= i < |keys| :: Get(Object(keys, vals), keys[i]) == Some(vals[i])
  {
    forall i | 0 <= i < |keys| ensures Lookup(keys, vals, keys[i]) == Some(vals[i]) {
      LookupAt(keys, vals, i);
    }
  }

  /** Python's `None` for an absent optional string. */
  function OptionalStr(s: Option<string>): Value {
    match s
    case None => Null
    case Some(v) => Str(v)
  }
}

=== FILE: models.dfy ===
/** The relational shape the order queries read: customers, products, orders
    and their line items, with the key, uniqueness and foreign-key constraints
    the storage enforces. */
module Models {
  import opened Wrappers
  import Hex
  import Json

  /** A UUID primary key: a 128-bit value, written as 32 hexadecimal digits. */
  type Uuid = u: nat | u < Hex.UuidBound

  datatype Customer = Customer(id: Uuid, name: string, address: Option<string>, phone: Option<string>)

  /** A product. Its manufacturer and countries are eagerly loaded relationships
      that the order queries never inspect; they are carried here already rendered. */
  datatype Product = Product(
    id: int, name: string, year: int, cpu: Option<string>,
    manufacturer: Json.Value, countries: seq<Json.Value>)

  /** An order. The timestamp is a point in time given as an integer. */
  datatype Order = Order(id: Uuid, timestamp: int, customerId: Uuid)

  /** A line item: a product sold within an order at a price snapshot, in cents. */
  datatype OrderItem = OrderItem(productId: int, orderId: Uuid, unitPrice: int, quantity: int)

  datatype Db = Db(customers: seq<Customer>, products: seq<Product>, orders: seq<Order>, items: seq<OrderItem>)

  predicate CustomerKeys(cs: seq<Customer>) {
    forall i, j | 0 <= i < j < |cs| :: cs[i].id != cs[j].id && cs[i].name != cs[j].name
  }

  predicate ProductKeys(ps: seq<Product>) {
    forall i, j | 0 <= i < j < |ps| :: ps[i].id != ps[j].id && ps[i].name != ps[j].name
  }

  predicate OrderKeys(os: seq<Order>) {
    forall i, j | 0 <= i < j < |os| :: os[i].id != os[j].id
  }

  /** The line-item primary key is the pair (product, order). */
  predicate ItemKeys(its: seq<OrderItem>) {
    forall i, j | 0 <= i < j < |its| :: (its[i].productId, its[i].orderId) != (its[j].productId, its[j].orderId)
  }

  /** Every foreign key points at an existing row. */
  predicate References(db: Db) {
    && (forall o | o in db.orders :: exists c | c in db.customers :: c.id == o.customerId)
    && (forall it | it in db.items :: exists o | o in db.orders :: o.id == it.orderId)
    && (forall it | it in db.items :: exists p | p in db.products :: p.id == it.productId)
  }

  predicate WellFormed(db: Db) {
    CustomerKeys(db.customers) && ProductKeys(db.products) && OrderKeys(db.orders)
    && ItemKeys(db.items) && References(db)
  }

  /** A state of the storage: the constraints hold in every state the queries read. */
  type Database = db: Db | WellFormed(db) witness Db([], [], [], [])

  /** The customer row with the given key, if there is one. */
  function FindCustomer(cs: seq<Customer>, id: Uuid): (r: Option<Customer>)
    ensures r.Some? <==> exists c | c in cs :: c.id == id
    ensures r.Some? ==> r.value in cs && r.value.id == id
  {
    if |cs| == 0 then None
    else if cs[0].id == id then Some(cs[0])
    else FindCustomer(cs[1..], id)
  }

  /** The product row with the given key, if there is one. */
  function FindProduct(ps: seq<Product>, id: int): (r: Option<Product>)
    ensures r.Some? <==> exists p | p in ps :: p.id == id
    ensures r.Some? ==> r.value in ps && r.value.id == id
  {
    if |ps| == 0 then None
    else if ps[0].id == id then Some(ps[0])
    else FindProduct(ps[1..], id)
  }

  /** The `order_items` collection of an order: its line items, in table order. */
  function ItemsOf(its: seq<OrderItem>, orderId: Uuid): (r: seq<OrderItem>)
    ensures forall x :: x in r <==> x in its && x.orderId == orderId
    ensures |r| <= |its|
  {
    if |its| == 0 then []
    else if its[0].orderId == orderId then [its[0]] + ItemsOf(its[1..], orderId)
    else ItemsOf(its[1..], orderId)
  }

  /** A line item with its product loaded. */
  datatype Line = Line(item: OrderItem, product: Product)

  /** An order as `to_dict` sees it: its customer and its line items, each with
      its product, loaded through the relationships. */
  datatype LoadedOrder = LoadedOrder(order: Order, customer: Customer, lines: seq<Line>)

  /** The loaded rows are the ones the order's foreign keys point at. */
  predicate Coherent(l: LoadedOrder) {
    && l.customer.id == l.order.customerId
    && forall i | 0 <= i < |l.lines| ::
         l.lines[i].item.orderId == l.order.id && l.lines[i].product.id == l.lines[i].item.productId
  }

  function LoadLines(db: Database, its: seq<OrderItem>): (ls: seq<Line>)
    requires forall it | it in its :: it in db.items
    ensures |ls| == |its|
    ensures forall i | 0 <= i < |its| ::
      ls[i].item == its[i] && ls[i].product in db.products && ls[i].product.id == its[i].productId
  {
    if |its| == 0 then []
    else [Line(its[0], FindProduct(db.products, its[0].productId).value)] + LoadLines(db, its[1..])
  }

  /** Loads an order of the database with its customer and its line items in
      table order; every relationship it follows is required, so nothing is missing. */
  function Load(db: Database, o: Order): (l: LoadedOrder)
    requires o in db.orders
    ensures Coherent(l) && l.order == o && l.customer in db.customers
    ensures |l.lines| == |ItemsOf(db.items, o.id)|
    ensures forall i | 0 <= i < |l.lines| :: l.lines[i].item == ItemsOf(db.items, o.id)[i] && l.lines[i].product in db.products
  {
    LoadedOrder(o, FindCustomer(db.customers, o.customerId).value, LoadLines(db, ItemsOf(db.items, o.id)))
  }

  /** A customer's key finds that customer, since keys are unique. */
  lemma FindCustomerUnique(db: Database, c: Customer)
    requires c in db.customers
    ensures FindCustomer(db.customers, c.id) == Some(c)
  {
    var r := FindCustomer(db.customers, c.id).value;
    var i :| 0 <= i < |db.customers| && db.customers[i] == c;
    var j :| 0 <= j < |db.customers| && db.customers[j] == r;
    assert !(i < j) && !(j < i);
  }

  /** A product's key finds that product, since keys are unique. */
  lemma FindProductUnique(db: Database, p: Product)
    requires p in db.products
    ensures FindProduct(db.products, p.id) == Some(p)
  {
    var r := FindProduct(db.products, p.id).value;
    var i :| 0 <= i < |db.products| && db.products[i] == p;
    var j :| 0 <= j < |db.products| && db.products[j] == r;
    assert !(i < j) && !(j < i);
  }

  /** Every order of the database has exactly one customer, and the lookup finds it. */
  lemma OrderHasOneCustomer(db: Database, o: Order)
    requires o in db.orders
    ensures FindCustomer(db.customers, o.customerId).Some?
    ensures forall c | c in db.customers && c.id == o.customerId :: FindCustomer(db.customers, o.customerId) == Some(c)
  {
    forall c | c in db.customers && c.id == o.customerId
      ensures FindCustomer(db.customers, o.customerId) == Some(c)
    {
      FindCustomerUnique(db, c);
    }
  }

  /** Every line item of the database references exactly one product, and the lookup finds it. */
  lemma ItemHasOneProduct(db: Database, it: OrderItem)
    requires it in db.items
    ensures FindProduct(db.products, it.productId).Some?
    ensures forall p | p in db.products && p.id == it.productId :: FindProduct(db.products, it.productId) == Some(p)
  {
    forall p | p in db.products && p.id == it.productId
      ensures FindProduct(db.products, it.productId) == Some(p)
    {
      FindProductUnique(db, p);
    }
  }

  /** Orders are keyed by id: two stored orders with one id are the same row. */
  lemma OrderIdsUnique(db: Database, o1: Order, o2: Order)
    requires o1 in db.orders && o2 in db.orders && o1.id == o2.id
    ensures o1 == o2
  {
    var i :| 0 <= i < |db.orders| && db.orders[i] == o1;
    var j :| 0 <= j < |db.orders| && db.orders[j] == o2;
    assert !(i < j) && !(j < i);
  }

  /** Line items are keyed by (product, order): two stored items with one key are the same row. */
  lemma ItemKeysUnique(db: Database, i1: OrderItem, i2: OrderItem)
    requires i1 in db.items && i2 in db.items
    requires i1.productId == i2.productId && i1.orderId == i2.orderId
    ensures i1 == i2
  {
    var i :| 0 <= i < |db.items| && db.items[i] == i1;
    var j :| 0 <= j < |db.items| && db.items[j] == i2;
    assert !(i < j) && !(j < i);
  }

  /** What a `Database` promises, stated over stored rows rather than table
      positions: rows that agree on a primary key or a unique column are the
      same row, and every foreign key finds the row it names. */
  lemma DatabaseConstraints(db: Database)
    ensures forall c1, c2 | c1 in db.customers && c2 in db.customers && (c1.id == c2.id || c1.name == c2.name) :: c1 == c2
    ensures forall p1, p2 | p1 in db.products && p2 in db.products && (p1.id == p2.id || p1.name == p2.name) :: p1 == p2
    ensures forall o1, o2 | o1 in db.orders && o2 in db.orders && o1.id == o2.id :: o1 == o2
    ensures forall i1, i2 | i1 in db.items && i2 in db.items && i1.productId == i2.productId && i1.orderId == i2.orderId :: i1 == i2
    ensures forall o | o in db.orders :: FindCustomer(db.customers, o.customerId).Some?
    ensures forall it | it in db.items :: FindProduct(db.products, it.productId).Some?
    ensures forall it | it in db.items :: exists o | o in db.orders :: o.id == it.orderId
  {
    forall c1, c2 | c1 in db.customers && c2 in db.customers && (c1.id == c2.id || c1.name == c2.name)
      ensures c1 == c2
    {
      if c1.id == c2.id {
        FindCustomerUnique(db, c1);
        FindCustomerUnique(db, c2);
      } else {
        CustomerNamesUnique(db, c1, c2);
      }
    }
    forall p1, p2 | p1 in db.products && p2 in db.products && (p1.id == p2.id || p1.name == p2.name)
      ensures p1 == p2
    {
      if p1.id == p2.id {
        FindProductUnique(db, p1);
        FindProductUnique(db, p2);
      } else {
        ProductNamesUnique(db, p1, p2);
      }
    }
    forall o1, o2 | o1 in db.orders && o2 in db.orders && o1.id == o2.id ensures o1 == o2 {
      OrderIdsUnique(db, o1, o2);
    }
    forall i1, i2 | i1 in db.items && i2 in db.items && i1.productId == i2.productId && i1.orderId == i2.orderId
      ensures i1 == i2
    {
      ItemKeysUnique(db, i1, i2);
    }
  }

  /** Customer names are unique: two customers with one name are the same row. */
  lemma CustomerNamesUnique(db: Database, c1: Customer, c2: Customer)
    requires c1 in db.customers && c2 in db.customers && c1.name == c2.name
    ensures c1 == c2
  {
    var i :| 0 <= i < |db.customers| && db.customers[i] == c1;
    var j :| 0 <= j < |db.customers| && db.customers[j] == c2;
    assert !(i < j) && !(j < i);
  }

  /** Product names are unique: two products with one name are the same row. */
  lemma ProductNamesUnique(db: Database, p1: Product, p2: Product)
    requires p1 in db.products && p2 in db.products && p1.name == p2.name
    ensures p1 == p2
  {
    var i :| 0 <= i < |db.products| && db.products[i] == p1;
    var j :| 0 <= j < |db.products| && db.products[j] == p2;
    assert !(i < j) && !(j < i);
  }

  lemma {:induction false} ItemsOfKeepsKeys(its: seq<OrderItem>, orderId: Uuid)
    requires ItemKeys(its)
    ensures ItemKeys(ItemsOf(its, orderId))
    decreases |its|
  {
    if |its| > 0 {
      assert ItemKeys(its[1..]);
      ItemsOfKeepsKeys(its[1..], orderId);
      if its[0].orderId == orderId {
        var r := [its[0]] + ItemsOf(its[1..], orderId);
        forall j | 0 < j < |r|
          ensures r[j] != its[0]
        {
          assert r[j] in its[1..];
          var k :| 0 <= k < |its[1..]| && its[1..][k] == r[j];
          assert its[k + 1] == r[j];
        }
      }
    }
  }

  /** An order holds at most one line item per product. */
  lemma OneItemPerProduct(db: Database, orderId: Uuid)
    ensures forall i, j | 0 <= i < j < |ItemsOf(db.items, orderId)| ::
      ItemsOf(db.items, orderId)[i].productId != ItemsOf(db.items, orderId)[j].productId
  {
    ItemsOfKeepsKeys(db.items, orderId);
    var r := ItemsOf(db.items, orderId);
    forall i, j | 0 <= i < j < |r|
      ensures r[i].productId != r[j].productId
    {
      assert r[i] in r && r[j] in r;
      assert (r[i].productId, r[i].orderId) != (r[j].productId, r[j].orderId);
    }
  }
}

=== FILE: ordering.dfy ===
/** The rows the listing returns and the multi-key ORDER BY applied to them. */
module Ordering {
  import opened Text
  import opened SortSpec
  import opened Models

  /** A result row: an order, the customer it was joined with, and its aggregated total. */
  datatype Row = Row(order: Order, customer: Customer, total: int)

  function CompareInt(a: int, b: int): int {
    if a < b then -1 else if a == b then 0 else 1
  }

  function CompareStr(a: string, b: string): int {
    if a == b then 0 else if Less(a, b) then -1 else 1
  }

  /** Ascending three-way comparison of two rows on one field. */
  function CompareField(f: SortField, a: Row, b: Row): int {
    match f
    case CustomerName => CompareStr(a.customer.name, b.customer.name)
    case Total => CompareInt(a.total, b.total)
    case Timestamp => CompareInt(a.order.timestamp, b.order.timestamp)
    case Id => CompareInt(a.order.id, b.order.id)
  }

  function CompareKey(k: SortKey, a: Row, b: Row): int {
    if k.dir == Asc then CompareField(k.field, a, b) else CompareField(k.field, b, a)
  }

  /** ORDER BY with several keys: the first key that tells the rows apart decides. */
  function Compare(keys: seq<SortKey>, a: Row, b: Row): int {
    if |keys| == 0 then 0
    else
      var c := CompareKey(keys[0], a, b);
      if c != 0 then c else Compare(keys[1..], a, b)
  }

  predicate Leq(keys: seq<SortKey>, a: Row, b: Row) {
    Compare(keys, a, b) <= 0
  }

  /** The rows are in the order the keys ask for; ties may come in any order. */
  predicate Sorted(keys: seq<SortKey>, rows: seq<Row>) {
    forall i, j | 0 <= i < j < |rows| :: Leq(keys, rows[i], rows[j])
  }

  lemma CompareStrAntisymmetric(a: string, b: string)
    ensures CompareStr(a, b) == -CompareStr(b, a)
  {
    if a != b {
      LessTrichotomy(a, b);
      if Less(a, b) {
        LessAsymmetric(a, b);
      }
    }
  }

  lemma CompareFieldAntisymmetric(f: SortField, a: Row, b: Row)
    ensures CompareField(f, a, b) == -CompareField(f, b, a)
  {
    if f == CustomerName {
      CompareStrAntisymmetric(a.customer.name, b.customer.name);
    }
  }

  /** Equal on a field is an equivalence, and strictly-before composes with it. */
  lemma CompareFieldTransitive(f: SortField, a: Row, b: Row, c: Row)
    requires CompareField(f, a, b) <= 0 && CompareField(f, b, c) <= 0
    ensures CompareField(f, a, c) <= 0
    ensures CompareField(f, a, c) == 0 ==> CompareField(f, a, b) == 0 && CompareField(f, b, c) == 0
  {
    if f == CustomerName {
      var x, y, z := a.customer.name, b.customer.name, c.customer.name;
      if x != y && y != z {
        LessTransitive(x, y, z);
      }
      if x == z && x != y {
        LessAsymmetric(x, y);
      }
    }
  }

  lemma CompareKeyTransitive(k: SortKey, a: Row, b: Row, c: Row)
    requires CompareKey(k, a, b) <= 0 && CompareKey(k, b, c) <= 0
    ensures CompareKey(k, a, c) <= 0
    ensures CompareKey(k, a, c) == 0 ==> CompareKey(k, a, b) == 0 && CompareKey(k, b, c) == 0
  {
    if k.dir == Asc {
      CompareFieldTransitive(k.field, a, b, c);
    } else {
      CompareFieldTransitive(k.field, c, b, a);
    }
  }

  lemma {:induction false} CompareAntisymmetric(keys: seq<SortKey>, a: Row, b: Row)
    ensures Compare(keys, a, b) == -Compare(keys, b, a)
    decreases |keys|
  {
    if |keys| > 0 {
      CompareFieldAntisymmetric(keys[0].field, a, b);
      CompareAntisymmetric(keys[1..], a, b);
    }
  }

  /** Any two rows are ordered one way or the other. */
  lemma LeqTotal(keys: seq<SortKey>, a: Row, b: Row)
    ensures Leq(keys, a, b) || Leq(keys, b, a)
  {
    CompareAntisymmetric(keys, a, b);
  }

  lemma {:induction false} LeqTransitive(keys: seq<SortKey>, a: Row, b: Row, c: Row)
    requires Leq(keys, a, b) && Leq(keys, b, c)
    ensures Leq(keys, a, c)
    decreases |keys|
  {
    if |keys| > 0 {
      var k := keys[0];
      var c1, c2 := CompareKey(k, a, b), CompareKey(k, b, c);
      if c1 == 0 && c2 == 0 {
        CompareKeyTransitive(k, a, b, c);
        LeqTransitive(keys[1..], a, b, c);
      } else if c1 <= 0 && c2 <= 0 {
        CompareKeyTransitive(k, a, b, c);
      } else if c1 > 0 {
        assert false;
      } else {
        assert false;
      }
    }
  }

  /** Places `x` among rows already in order. */
  function Insert(keys: seq<SortKey>, x: Row, s: seq<Row>): (r: seq<Row>)
    ensures multiset(r) == multiset(s) + multiset{x}
    ensures forall y | y in r :: y == x || y in s
  {
    if |s| == 0 then [x]
    else if Leq(keys, x, s[0]) then [x] + s
    else
      assert s == [s[0]] + s[1..];
      [s[0]] + Insert(keys, x, s[1..])
  }

  /** The first of sorted rows comes before every later one. */
  lemma HeadLeq(keys: seq<SortKey>, s: seq<Row>, y: Row)
    requires Sorted(keys, s) && |s| > 0 && y in s[1..]
    ensures Leq(keys, s[0], y)
  {
    var k :| 0 <= k < |s[1..]| && s[1..][k] == y;
    assert s[k + 1] == y;
  }

  /** A row that comes before all of some sorted rows can lead them. */
  lemma SortedCons(keys: seq<SortKey>, y: Row, t: seq<Row>)
    requires Sorted(keys, t) && forall z | z in t :: Leq(keys, y, z)
    ensures Sorted(keys, [y] + t)
  {
    var r := [y] + t;
    forall i, j | 0 <= i < j < |r| ensures Leq(keys, r[i], r[j]) {
      assert r[j] == t[j - 1];
      if i == 0 {
        assert t[j - 1] in t;
      } else {
        assert r[i] == t[i - 1];
      }
    }
  }

  lemma {:induction false} InsertSorted(keys: seq<SortKey>, x: Row, s: seq<Row>)
    requires Sorted(keys, s)
    ensures Sorted(keys, Insert(keys, x, s))
    decreases |s|
  {
    if |s| == 0 {
      assert Insert(keys, x, s) == [x];
    } else if Leq(keys, x, s[0]) {
      forall z | z in s ensures Leq(keys, x, z) {
        if z != s[0] {
          assert z in s[1..] by { assert s == [s[0]] + s[1..]; }
          HeadLeq(keys, s, z);
          LeqTransitive(keys, x, s[0], z);
        }
      }
      SortedCons(keys, x, s);
    } else {
      LeqTotal(keys, x, s[0]);
      assert Sorted(keys, s[1..]) by {
        forall i, j | 0 <= i < j < |s[1..]| ensures Leq(keys, s[1..][i], s[1..][j]) {
          assert s[1..][i] == s[i + 1] && s[1..][j] == s[j + 1];
        }
      }
      InsertSorted(keys, x, s[1..]);
      var t := Insert(keys, x, s[1..]);
      forall z | z in t ensures Leq(keys, s[0], z) {
        if z != x {
          HeadLeq(keys, s, z);
        }
      }
      SortedCons(keys, s[0], t);
    }
  }

  /** Insertion sort: one ordering the ORDER BY keys allow. */
  function SortRows(keys: seq<SortKey>, s: seq<Row>): (r: seq<Row>)
    ensures Sorted(keys, r)
    ensures multiset(r) == multiset(s)
  {
    if |s| == 0 then []
    else
      var t := SortRows(keys, s[1..]);
      InsertSorted(keys, s[0], t);
      assert s == [s[0]] + s[1..];
      Insert(keys, s[0], t)
  }

  /** Every key with its direction reversed. */
  function Flip(keys: seq<SortKey>): (r: seq<SortKey>)
    ensures |r| == |keys|
    ensures forall i | 0 <= i < |keys| :: r[i].field == keys[i].field && r[i].dir != keys[i].dir
  {
    seq(|keys|, i requires 0 <= i < |keys| => SortKey(keys[i].field, if keys[i].dir == Asc then Desc else Asc))
  }

  lemma {:induction false} CompareFlip(keys: seq<SortKey>, a: Row, b: Row)
    ensures Compare(Flip(keys), a, b) == Compare(keys, b, a)
    decreases |keys|
  {
    if |keys| > 0 {
      assert Flip(keys)[1..] == Flip(keys[1..]);
      CompareFlip(keys[1..], a, b);
    }
  }

  function Reverse(s: seq<Row>): (r: seq<Row>)
    ensures |r| == |s|
    ensures forall i | 0 <= i < |s| :: r[i] == s[|s| - 1 - i]
  {
    seq(|s|, i requires 0 <= i < |s| => s[|s| - 1 - i])
  }

  /** Reversing rows sorted by some keys sorts them by the opposite directions:
      `+total` reversed is `-total`. */
  lemma SortedReverse(keys: seq<SortKey>, rows: seq<Row>)
    ensures Sorted(keys, rows) <==> Sorted(Flip(keys), Reverse(rows))
  {
    var n := |rows|;
    var rev := Reverse(rows);
    if Sorted(keys, rows) {
      forall i, j | 0 <= i < j < n
        ensures Leq(Flip(keys), rev[i], rev[j])
      {
        CompareFlip(keys, rev[i], rev[j]);
      }
    }
    if Sorted(Flip(keys), rev) {
      forall i, j | 0 <= i < j < n
        ensures Leq(keys, rows[i], rows[j])
      {
        assert rows[i] == rev[n - 1 - i] && rows[j] == rev[n - 1 - j];
        CompareFlip(keys, rows[j], rows[i]);
      }
    }
  }

  /** Rows sorted by several keys are ordered by the first key, and rows that
      tie on it are ordered by the remaining keys. */
  lemma SortedByLeadingKey(keys: seq<SortKey>, rows: seq<Row>, i: int, j: int)
    requires Sorted(keys, rows) && |keys| > 0 && 0 <= i < j < |rows|
    ensures CompareKey(keys[0], rows[i], rows[j]) <= 0
    ensures CompareKey(keys[0], rows[i], rows[j]) == 0 ==> Leq(keys[1..], rows[i], rows[j])
  {
  }
}

=== FILE: pyint.dfy ===
/** Python's `int()` applied to a string in base 10: which strings it accepts.
    The value itself is not needed here, only whether `int()` raises `ValueError`. */
module PyInt {

  /** The characters `int()` skips around the number: the ASCII white space
      `\t` to `\r` and the space, and the Unicode white space above U+007F.
      The separators U+001C to U+001F, white space to `str.isspace()`, are not skipped. */
  predicate IsSpace(c: char) {
    || c == ' ' || '\t' <= c <= '\r'
    || c == '\U{85}' || c == '\U{a0}' || c == '\U{1680}' || '\U{2000}' <= c <= '\U{200a}'
    || c == '\U{2028}' || c == '\U{2029}' || c == '\U{202f}' || c == '\U{205f}' || c == '\U{3000}'
  }

  predicate IsDigit(c: char) {
    '0' <= c <= '9'
  }

  /** `s` without its leading white space. */
  function TrimStart(s: string): (r: string)
    ensures |r| <= |s| && r == s[|s| - |r|..]
    ensures forall i | 0 <= i < |s| - |r| :: IsSpace(s[i])
    ensures |r| > 0 ==> !IsSpace(r[0])
    decreases |s|
  {
    if |s| > 0 && IsSpace(s[0]) then TrimStart(s[1..]) else s
  }

  /** `s` without its trailing white space. */
  function TrimEnd(s: string): (r: string)
    ensures |r| <= |s| && r == s[..|r|]
    ensures forall i | |r| <= i < |s| :: IsSpace(s[i])
    ensures |r| > 0 ==> !IsSpace(r[|r| - 1])
    decreases |s|
  {
    if |s| > 0 && IsSpace(s[|s| - 1]) then TrimEnd(s[..|s| - 1]) else s
  }

  /** How many characters of white space `s` starts with. */
  function Lead(s: string): (n: nat)
    ensures n <= |s|
  {
    |s| - |TrimStart(s)|
  }

  /** `s` with the white space at both ends removed: a slice of `s` starting
      at `Lead(s)`, with only white space cut off before and after it. */
  function Strip(s: string): (r: string)
    ensures Lead(s) + |r| <= |s| && r == s[Lead(s)..Lead(s) + |r|]
    ensures forall i | 0 <= i < Lead(s) :: IsSpace(s[i])
    ensures forall i | Lead(s) + |r| <= i < |s| :: IsSpace(s[i])
    ensures |r| > 0 ==> !IsSpace(r[0]) && !IsSpace(r[|r| - 1])
  {
    var t := TrimStart(s);
    var r := TrimEnd(t);
    SliceOfSuffix(s, t, r);
    r
  }

  /** A prefix `r` of a suffix `t` of `s` is a slice of `s`, and what `t`
      drops after `r` is what `s` has after that slice. */
  lemma SliceOfSuffix(s: string, t: string, r: string)
    requires |t| <= |s| && t == s[|s| - |t|..]
    requires |r| <= |t| && r == t[..|r|]
    requires forall i | |r| <= i < |t| :: IsSpace(t[i])
    ensures r == s[|s| - |t|..|s| - |t| + |r|]
    ensures forall i | |s| - |t| + |r| <= i < |s| :: IsSpace(s[i])
  {
    var a := |s| - |t|;
    forall i | a + |r| <= i < |s| ensures IsSpace(s[i]) {
      assert s[i] == t[i - a];
    }
  }

  /** Decimal digits, where a single underscore may separate two digits. */
  predicate DigitRun(s: string)
    decreases |s|
  {
    && |s| > 0 && IsDigit(s[0])
    && (|s| == 1 || DigitRun(s[1..]) || (s[1] == '_' && DigitRun(s[2..])))
  }

  /** The most digits `int()` converts from a string: the default of
      `sys.get_int_max_str_digits()`. */
  const MaxStrDigits: nat := 4300

  /** How many decimal digits `s` holds; underscores and signs do not count,
      leading zeros do. */
  function DigitCount(s: string): (n: nat)
    ensures n <= |s|
  {
    if |s| == 0 then 0 else (if IsDigit(s[0]) then 1 else 0) + DigitCount(s[1..])
  }

  /** `int(s)` succeeds: after the white space around it, an optional sign and
      then digits, where a single underscore may separate two digits, and no
      more than `MaxStrDigits` digits in all. White space is never a digit,
      so the digits of `s` are those of the number. */
  predicate IsIntLiteral(s: string) {
    var t := Strip(s);
    && |t| > 0 && DigitRun(if t[0] == '+' || t[0] == '-' then t[1..] else t)
    && DigitCount(s) <= MaxStrDigits
  }

  lemma {:induction false} DigitCountConcat(a: string, b: string)
    ensures DigitCount(a + b) == DigitCount(a) + DigitCount(b)
    decreases |a|
  {
    if |a| > 0 {
      assert (a + b)[1..] == a[1..] + b;
      DigitCountConcat(a[1..], b);
    } else {
      assert a + b == b;
    }
  }

  lemma {:induction false} DigitCountAll(d: string)
    requires forall i | 0 <= i < |d| :: IsDigit(d[i])
    ensures DigitCount(d) == |d|
    decreases |d|
  {
    if |d| > 0 {
      DigitCountAll(d[1..]);
    }
  }

  lemma {:induction false} DigitCountNone(x: string)
    requires forall i | 0 <= i < |x| :: !IsDigit(x[i])
    ensures DigitCount(x) == 0
    decreases |x|
  {
    if |x| > 0 {
      DigitCountNone(x[1..]);
    }
  }

  /** The digit-run grammar stated without recursion: digits and underscores,
      a digit at each end, and never two underscores in a row. */
  predicate Underscored(s: string) {
    && |s| > 0 && IsDigit(s[0]) && IsDigit(s[|s| - 1])
    && (forall i | 0 <= i < |s| :: IsDigit(s[i]) || s[i] == '_')
    && (forall i | 0 <= i < |s| - 1 :: s[i] == '_' ==> s[i + 1] != '_')
  }

  lemma {:induction false} DigitRunIsUnderscored(s: string)
    ensures DigitRun(s) <==> Underscored(s)
    decreases |s|
  {
    if |s| >= 2 {
      DigitRunIsUnderscored(s[1..]);
      DigitRunIsUnderscored(s[2..]);
      if DigitRun(s) {
        if DigitRun(s[1..]) {
          assert forall i | 1 <= i < |s| :: s[i] == s[1..][i - 1];
        } else {
          assert forall i | 2 <= i < |s| :: s[i] == s[2..][i - 2];
        }
      }
      if Underscored(s) {
        if IsDigit(s[1]) {
          assert forall i | 0 <= i < |s| - 1 :: s[1..][i] == s[i + 1];
          assert Underscored(s[1..]);
        } else {
          assert s[2] != '_';
          assert forall i | 0 <= i < |s| - 2 :: s[2..][i] == s[i + 2];
          assert Underscored(s[2..]);
        }
      }
    }
  }

  /** `int(s)` stated without recursion: the stripped string, less an
      optional sign, is digits and underscores with a digit at each end and
      no two underscores in a row, and `s` holds at most `MaxStrDigits` digits. */
  lemma IntLiteralIsUnderscored(s: string)
    ensures IsIntLiteral(s) <==>
      var t := Strip(s);
      && |t| > 0 && Underscored(if t[0] == '+' || t[0] == '-' then t[1..] else t)
      && DigitCount(s) <= MaxStrDigits
  {
    var t := Strip(s);
    if |t| > 0 {
      DigitRunIsUnderscored(if t[0] == '+' || t[0] == '-' then t[1..] else t);
    }
  }

  /** A string with no white space at either end is its own strip. */
  lemma StripUnspaced(s: string)
    requires |s| > 0 && !IsSpace(s[0]) && !IsSpace(s[|s| - 1])
    ensures Strip(s) == s
  {
    assert TrimStart(s) == s;
    assert TrimEnd(s) == s;
  }

  /** An unsigned, unspaced digit run is an integer literal. */
  lemma UnsignedRunAccepted(s: string)
    requires Strip(s) == s && Underscored(s) && DigitCount(s) <= MaxStrDigits
    ensures IsIntLiteral(s)
  {
    DigitRunIsUnderscored(s);
  }

  /** A run of plain digits, at most `MaxStrDigits` long, is an integer literal. */
  lemma DigitsAccepted(s: string)
    requires 0 < |s| <= MaxStrDigits && forall i | 0 <= i < |s| :: IsDigit(s[i])
    ensures IsIntLiteral(s)
  {
    assert IsDigit(s[0]) && IsDigit(s[|s| - 1]);
    DigitCountAll(s);
    StripUnspaced(s);
    UnsignedRunAccepted(s);
  }

  /** A string without a single digit, the empty string among them, is rejected. */
  lemma NoDigitRejected(s: string)
    requires forall i | 0 <= i < |s| :: !IsDigit(s[i])
    ensures !IsIntLiteral(s)
  {
    var t := Strip(s);
    if |t| > 0 {
      var x := if t[0] == '+' || t[0] == '-' then t[1..] else t;
      if |x| > 0 {
        assert x[0] in s;
      }
    }
  }

  predicate AllSpace(p: string) {
    forall i | 0 <= i < |p| :: IsSpace(p[i])
  }

  predicate AllDigits(d: string) {
    forall i | 0 <= i < |d| :: IsDigit(d[i])
  }

  lemma {:induction false} TrimStartSpaces(p: string, t: string)
    requires AllSpace(p)
    ensures TrimStart(p + t) == TrimStart(t)
    decreases |p|
  {
    if |p| > 0 {
      assert (p + t)[1..] == p[1..] + t;
      TrimStartSpaces(p[1..], t);
    } else {
      assert p + t == t;
    }
  }

  lemma {:induction false} TrimEndSpaces(t: string, q: string)
    requires AllSpace(q)
    ensures TrimEnd(t + q) == TrimEnd(t)
    decreases |q|
  {
    if |q| > 0 {
      assert (t + q)[..|t + q| - 1] == t + q[..|q| - 1];
      TrimEndSpaces(t, q[..|q| - 1]);
    } else {
      assert t + q == t;
    }
  }

  lemma StripPadded(p: string, d: string, q: string)
    requires AllSpace(p) && AllSpace(q) && |d| > 0 && !IsSpace(d[0]) && !IsSpace(d[|d| - 1])
    ensures Strip(p + d + q) == d
  {
    assert p + d + q == p + (d + q);
    TrimStartSpaces(p, d + q);
    assert (d + q)[0] == d[0];
    assert TrimStart(d + q) == d + q;
    TrimEndSpaces(d, q);
    assert TrimEnd(d) == d;
  }

  /** White space around a run of digits is skipped. */
  lemma SpacedDigitsAccepted(p: string, d: string, q: string)
    requires AllSpace(p) && AllSpace(q) && 0 < |d| <= MaxStrDigits && AllDigits(d)
    ensures IsIntLiteral(p + d + q)
  {
    assert IsDigit(d[0]) && IsDigit(d[|d| - 1]);
    StripPadded(p, d, q);
    DigitCountAll(d);
    DigitCountNone(p);
    DigitCountNone(q);
    CountBetween(p, d, q);
    DigitRunIsUnderscored(d);
  }

  /** A string whose first character is neither white space, a sign nor a
      digit is rejected. */
  lemma BadFirstRejected(s: string)
    requires |s| > 0 && !IsSpace(s[0]) && !IsDigit(s[0]) && s[0] != '+' && s[0] != '-'
    ensures !IsIntLiteral(s)
  {
    var t := Strip(s);
    if |t| > 0 {
      assert Lead(s) == 0;
      assert t[0] == s[0];
    }
  }

  /** The information separators U+001C to U+001F are not skipped: a digit
      run after one is rejected. */
  lemma SeparatorRejected(c: char, d: string)
    requires '\U{1c}' <= c <= '\U{1f}'
    ensures !IsIntLiteral([c] + d)
  {
    BadFirstRejected([c] + d);
  }

  /** A single underscore may separate two runs of digits. */
  lemma UnderscoreAccepted(a: string, b: string)
    requires |a| > 0 && |b| > 0 && |a| + |b| <= MaxStrDigits && AllDigits(a) && AllDigits(b)
    ensures IsIntLiteral(a + ['_'] + b)
  {
    var s := a + ['_'] + b;
    UnderscoreCount(a, b);
    assert s[0] == a[0] && s[|s| - 1] == b[|b| - 1];
    StripUnspaced(s);
    forall i | 0 <= i < |s| - 1 && s[i] == '_' ensures s[i + 1] != '_' {
      assert i == |a|;
    }
    assert Underscored(s);
    UnsignedRunAccepted(s);
  }

  /** More than `MaxStrDigits` digits in a row are rejected. */
  lemma TooManyDigitsRejected(d: string)
    requires |d| > MaxStrDigits && AllDigits(d)
    ensures !IsIntLiteral(d)
  {
    DigitCountAll(d);
  }

  lemma CountBetween(x: string, m: string, y: string)
    requires DigitCount(x) == 0 && DigitCount(y) == 0
    ensures DigitCount(x + m + y) == DigitCount(m)
  {
    DigitCountConcat(x + m, y);
    DigitCountConcat(x, m);
  }

  lemma UnderscoreCount(a: string, b: string)
    requires AllDigits(a) && AllDigits(b)
    ensures DigitCount(a + ['_'] + b) == |a| + |b|
  {
    DigitCountConcat(a + ['_'], b);
    DigitCountConcat(a, ['_']);
    DigitCountAll(a);
    DigitCountAll(b);
  }

  /** Two underscores in a row are rejected, wherever they stand. */
  lemma DoubleUnderscoreRejected(s: string, k: nat)
    requires k + 1 < |s| && s[k] == '_' && s[k + 1] == '_'
    ensures !IsIntLiteral(s)
  {
    var t := Strip(s);
    var a := Lead(s);
    assert a <= k && k + 1 < a + |t| by {
      assert !IsSpace(s[k]) && !IsSpace(s[k + 1]);
    }
    assert t[k - a] == '_' && t[k + 1 - a] == '_';
    if t[0] == '+' || t[0] == '-' {
      PairBreaksRun(t[1..], k - a - 1);
    } else {
      PairBreaksRun(t, k - a);
    }
  }

  lemma PairBreaksRun(x: string, j: int)
    requires 0 <= j && j + 1 < |x| && x[j] == '_' && x[j + 1] == '_'
    ensures !DigitRun(x)
  {
    DigitRunIsUnderscored(x);
  }
}

=== FILE: queries.dfy ===
/** The two queries behind the orders listing: `paginated_orders`, the rows of
    the listing, and `total_orders`, the count the listing reports beside them.
    Each query is given its meaning over a state of the storage. */
module Queries {
  import opened Wrappers
  import opened Text
  import opened SqlLike
  import opened Models
  import opened SortSpec
  import opened Ordering
  import PyInt

  /** One row of orders ⋈ customers ⋈ orders_items ⋈ products. */
  datatype JoinRow = JoinRow(order: Order, customer: Customer, item: OrderItem, product: Product)

  /** The join conditions: the row is made of stored rows that the order's
      foreign keys, and its line item's, connect. */
  ghost predicate Joined(db: Database, o: Order, r: JoinRow) {
    && r.order == o
    && r.customer in db.customers && r.customer.id == o.customerId
    && r.item in db.items && r.item.orderId == o.id
    && r.product in db.products && r.product.id == r.item.productId
  }

  function RowsOfLines(o: Order, c: Customer, lines: seq<Line>): (rs: seq<JoinRow>)
    ensures |rs| == |lines|
    ensures forall i | 0 <= i < |lines| :: rs[i] == JoinRow(o, c, lines[i].item, lines[i].product)
  {
    seq(|lines|, i requires 0 <= i < |lines| => JoinRow(o, c, lines[i].item, lines[i].product))
  }

  /** The join rows of one order: one per line item, in table order, each with
      the order's customer and the item's product. */
  function JoinRowsOf(db: Database, o: Order): (rs: seq<JoinRow>)
    requires o in db.orders
    ensures |rs| == |ItemsOf(db.items, o.id)|
    ensures forall i | 0 <= i < |rs| :: rs[i].item == ItemsOf(db.items, o.id)[i]
    ensures forall i | 0 <= i < |rs| :: Joined(db, o, rs[i])
    ensures forall r | r in rs :: Joined(db, o, r)
    ensures forall i, j | 0 <= i < |rs| && 0 <= j < |rs| :: rs[i].customer == rs[j].customer
  {
    var l := Load(db, o);
    RowsOfLines(o, l.customer, l.lines)
  }

  /** The join produces exactly the rows the join conditions allow: none is
      missing and none is made up. */
  lemma JoinRowsOfMembers(db: Database, o: Order, r: JoinRow)
    requires o in db.orders
    ensures r in JoinRowsOf(db, o) <==> Joined(db, o, r)
  {
    var rs := JoinRowsOf(db, o);
    if Joined(db, o, r) {
      var its := ItemsOf(db.items, o.id);
      assert r.item in its;
      var i :| 0 <= i < |its| && its[i] == r.item;
      var l := Load(db, o);
      assert rs[i] == JoinRow(o, l.customer, l.lines[i].item, l.lines[i].product);
      FindCustomerUnique(db, r.customer);
      FindCustomerUnique(db, l.customer);
      FindProductUnique(db, r.product);
      FindProductUnique(db, l.lines[i].product);
      assert rs[i] == r;
    }
  }

  /** The search condition: the customer's name or the product's name is
      `ILIKE '%search%'`. */
  predicate SearchClause(search: string, r: JoinRow) {
    ILike(r.customer.name, Surround(search)) || ILike(r.product.name, Surround(search))
  }

  /** The join rows that pass the search condition, in their order. */
  function Filter(search: string, rs: seq<JoinRow>): (out: seq<JoinRow>)
    ensures forall r :: r in out <==> r in rs && SearchClause(search, r)
    ensures |out| <= |rs|
  {
    if |rs| == 0 then []
    else if SearchClause(search, rs[0]) then [rs[0]] + Filter(search, rs[1..])
    else Filter(search, rs[1..])
  }

  /** For search text without `%` or `_`, a join row passes the search
      condition exactly when the customer's name or the product's name
      contains the text, ignoring letter case. */
  lemma SearchClauseIsOccurs(search: string, r: JoinRow)
    requires NoWildcards(search)
    ensures SearchClause(search, r) <==>
      Occurs(Lower(r.customer.name), Lower(search)) || Occurs(Lower(r.product.name), Lower(search))
  {
    ILikeSurroundIsOccurs(r.customer.name, search);
    ILikeSurroundIsOccurs(r.product.name, search);
  }

  /** The WHERE clause, added only for a non-empty search. */
  function Where(search: string, rs: seq<JoinRow>): (out: seq<JoinRow>)
    ensures forall r | r in out :: r in rs
    ensures search == [] ==> out == rs
    ensures search != [] ==> forall r :: r in out <==> r in rs && SearchClause(search, r)
  {
    if search == [] then rs else Filter(search, rs)
  }

  /** The join rows of an order that reach GROUP BY: the filter applies to
      single rows, before they are grouped. */
  function MatchingRows(db: Database, o: Order, search: string): (rs: seq<JoinRow>)
    requires o in db.orders
    ensures forall r | r in rs :: r in JoinRowsOf(db, o)
  {
    Where(search, JoinRowsOf(db, o))
  }

  /** `sum(quantity * unit_price)` over join rows. */
  function SumLines(rs: seq<JoinRow>): int {
    if |rs| == 0 then 0 else rs[0].item.quantity * rs[0].item.unitPrice + SumLines(rs[1..])
  }

  /** The sum over rows taken in two parts is the sum of the parts' sums. */
  lemma {:induction false} SumLinesAppend(a: seq<JoinRow>, b: seq<JoinRow>)
    ensures SumLines(a + b) == SumLines(a) + SumLines(b)
    decreases |a|
  {
    if |a| > 0 {
      assert (a + b)[1..] == a[1..] + b;
      SumLinesAppend(a[1..], b);
    } else {
      assert a + b == b;
    }
  }

  /** The sum of quantity times unit price over line items. */
  function ItemsTotal(its: seq<OrderItem>): int {
    if |its| == 0 then 0 else its[0].quantity * its[0].unitPrice + ItemsTotal(its[1..])
  }

  /** The order's total: quantity times unit price, summed over all its line items. */
  function OrderTotal(db: Database, o: Order): int {
    ItemsTotal(ItemsOf(db.items, o.id))
  }

  /** GROUP BY of one order's rows: no group when no row is left, otherwise
      one row with the order, its customer and the sum over the rows. */
  function Group(o: Order, rs: seq<JoinRow>): (r: Option<Row>)
    ensures r.Some? <==> |rs| > 0
    ensures r.Some? ==> r.value.order == o && r.value.customer in (set x | x in rs :: x.customer)
  {
    if |rs| == 0 then None else Some(Row(o, rs[0].customer, SumLines(rs)))
  }

  /** The group of rows taken in two parts carries the sum of both parts' sums. */
  lemma GroupSplit(o: Order, a: seq<JoinRow>, b: seq<JoinRow>)
    requires |a| > 0
    ensures Group(o, a + b) == Some(Row(o, a[0].customer, SumLines(a) + SumLines(b)))
  {
    SumLinesAppend(a, b);
    assert (a + b)[0] == a[0];
  }

  /** The listing row of one order, if the order has one. */
  function GroupRow(db: Database, o: Order, search: string): (r: Option<Row>)
    requires o in db.orders
    ensures r.Some? ==> r.value.order == o
    ensures r.Some? ==> r.value.customer in db.customers && r.value.customer.id == o.customerId
  {
    var rs := MatchingRows(db, o, search);
    assert |rs| > 0 ==> rs[0] in rs;
    Group(o, rs)
  }

  /** The grouped rows of the given orders, in their order. */
  function Grouped(db: Database, os: seq<Order>, search: string): (rows: seq<Row>)
    requires forall o | o in os :: o in db.orders
    ensures |rows| <= |os|
  {
    if |os| == 0 then []
    else
      var rest := Grouped(db, os[1..], search);
      match GroupRow(db, os[0], search)
      case None => rest
      case Some(r) => [r] + rest
  }

  lemma {:induction false} GroupedSound(db: Database, os: seq<Order>, search: string)
    requires forall o | o in os :: o in db.orders
    ensures forall row | row in Grouped(db, os, search) :: row.order in os && GroupRow(db, row.order, search) == Some(row)
    decreases |os|
  {
    if |os| > 0 {
      var tail := os[1..];
      GroupedSound(db, tail, search);
      var rest := Grouped(db, tail, search);
      forall row | row in Grouped(db, os, search)
        ensures row.order in os && GroupRow(db, row.order, search) == Some(row)
      {
        if row !in rest {
          assert GroupRow(db, os[0], search) == Some(row);
        } else {
          assert row.order in tail;
        }
      }
    }
  }

  lemma {:induction false} GroupedComplete(db: Database, os: seq<Order>, search: string)
    requires forall o | o in os :: o in db.orders
    ensures forall o | o in os && GroupRow(db, o, search).Some? :: GroupRow(db, o, search).value in Grouped(db, os, search)
    decreases |os|
  {
    if |os| > 0 {
      var tail := os[1..];
      GroupedComplete(db, tail, search);
      var rest := Grouped(db, tail, search);
      var rows := Grouped(db, os, search);
      assert forall row | row in rest :: row in rows;
      forall o | o in os && GroupRow(db, o, search).Some?
        ensures GroupRow(db, o, search).value in rows
      {
        if o == os[0] {
          assert rows == [GroupRow(db, o, search).value] + rest;
        } else {
          assert o in tail;
        }
      }
    }
  }

  /** GROUP BY keeps the groups that exist and makes up none. */
  lemma GroupedMembers(db: Database, os: seq<Order>, search: string)
    requires forall o | o in os :: o in db.orders
    ensures forall row | row in Grouped(db, os, search) :: row.order in os && GroupRow(db, row.order, search) == Some(row)
    ensures forall o | o in os && GroupRow(db, o, search).Some? :: GroupRow(db, o, search).value in Grouped(db, os, search)
  {
    GroupedSound(db, os, search);
    GroupedComplete(db, os, search);
  }

  /** The rows of the listing query, before ORDER BY: the grouped row of each
      order that has one. GROUP BY yields at most one row per order, so never
      more rows than orders. */
  function ListingRows(db: Database, search: string): (rows: seq<Row>)
    ensures |rows| <= |db.orders|
    ensures DistinctOrders(rows)
  {
    GroupedDistinct(db, db.orders, search);
    Grouped(db, db.orders, search)
  }

  /** The listing query `paginated_orders` builds: its filter and its ORDER BY keys. */
  datatype ListingQuery = ListingQuery(search: string, orderBy: seq<SortKey>)

  /** What building the listing query raises. */
  datatype QueryError =
    | SortFailed(sortError: SortError)  // raised while reading the sort string
    | NotAnInteger(value: string)       // ValueError from `int()` of a start or length

  /** A page parameter `offset()` or `limit()` takes without raising: an absent
      one (`None`) or a string `int()` accepts. */
  predicate PageArgOk(a: Option<string>) {
    a.None? || PyInt.IsIntLiteral(a.value)
  }

  /** `paginated_orders`: the listing query for a request, or the error building
      it raises. The sort string is read first. Then `offset(start)` and
      `limit(length)` convert their arguments with `int()`, which raises for a
      present value that is not an integer; when both convert, the paginated
      query is discarded and the unpaginated one returned. */
  function PaginatedOrders(search: string, start: Option<string>, length: Option<string>, sort: string)
    : (r: Result<ListingQuery, QueryError>)
    ensures r.Success? <==> ParseSort(sort).Success? && PageArgOk(start) && PageArgOk(length)
    ensures r.Success? ==> r.value == ListingQuery(search, ParseSort(sort).value)
    ensures ParseSort(sort).Failure? ==> r == Failure(SortFailed(ParseSort(sort).error))
    ensures ParseSort(sort).Success? && !PageArgOk(start) ==> r == Failure(NotAnInteger(start.value))
    ensures ParseSort(sort).Success? && PageArgOk(start) && !PageArgOk(length) ==> r == Failure(NotAnInteger(length.value))
  {
    match ParseSort(sort)
    case Failure(e) => Failure(SortFailed(e))
    case Success(keys) =>
      if !PageArgOk(start) then Failure(NotAnInteger(start.value))
      else if !PageArgOk(length) then Failure(NotAnInteger(length.value))
      else Success(ListingQuery(search, keys))
  }

  /** Page parameters that convert have no effect on the query: it is the one
      built with none. */
  lemma PageIgnored(search: string, start: Option<string>, length: Option<string>, sort: string)
    requires PageArgOk(start) && PageArgOk(length)
    ensures PaginatedOrders(search, start, length, sort) == PaginatedOrders(search, None, None, sort)
  {
  }

  /** A start or length with no digit in it, the empty string among them, makes
      building the query raise, once the sort string is read. */
  lemma NonNumericPageRejected(search: string, start: Option<string>, length: Option<string>, sort: string)
    requires ParseSort(sort).Success?
    requires start.Some? && forall i | 0 <= i < |start.value| :: !PyInt.IsDigit(start.value[i])
    ensures PaginatedOrders(search, start, length, sort) == Failure(NotAnInteger(start.value))
  {
    PyInt.NoDigitRejected(start.value);
  }

  /** A start led by one of the separators U+001C to U+001F, which `int()`
      does not skip, makes building the query raise, whatever follows. */
  lemma SeparatorPageRejected(search: string, c: char, d: string, length: Option<string>, sort: string)
    requires ParseSort(sort).Success? && '\U{1c}' <= c <= '\U{1f}'
    ensures PaginatedOrders(search, Some([c] + d), length, sort) == Failure(NotAnInteger([c] + d))
  {
    PyInt.SeparatorRejected(c, d);
  }

  /** A start of more than `PyInt.MaxStrDigits` digits makes building the
      query raise: `int()` refuses to convert it. */
  lemma TooLongPageRejected(search: string, d: string, length: Option<string>, sort: string)
    requires ParseSort(sort).Success? && |d| > PyInt.MaxStrDigits && PyInt.AllDigits(d)
    ensures PaginatedOrders(search, Some(d), length, sort) == Failure(NotAnInteger(d))
  {
    PyInt.TooManyDigitsRejected(d);
  }

  /** `rows` is an answer to the listing query: its rows, each as often as the
      query yields it, in an order its ORDER BY keys allow. */
  ghost predicate IsListing(db: Database, q: ListingQuery, rows: seq<Row>) {
    multiset(rows) == multiset(ListingRows(db, q.search)) && Sorted(q.orderBy, rows)
  }

  /** Runs a listing query. */
  function Execute(db: Database, q: ListingQuery): (rows: seq<Row>)
    ensures IsListing(db, q, rows)
  {
    SortRows(q.orderBy, ListingRows(db, q.search))
  }

  /** The count query `total_orders` builds. */
  datatype CountQuery =
    | CountAll                      // count(orders.id) over the orders table
    | CountDistinct(search: string) // count(distinct orders.id) over the filtered join

  /** `total_orders`: with no search, a count of every order; with one, a count
      of the distinct orders that some matching join row belongs to. */
  function TotalOrders(search: string): (q: CountQuery)
    ensures q == CountAll <==> search == []
    ensures q.CountDistinct? ==> q.search == search
  {
    if search == [] then CountAll else CountDistinct(search)
  }

  /** Every row of the four-table join. */
  function AllJoinRows(db: Database): seq<JoinRow> {
    JoinRowsFrom(db, db.orders)
  }

  function JoinRowsFrom(db: Database, os: seq<Order>): (rs: seq<JoinRow>)
    requires forall o | o in os :: o in db.orders
    ensures forall r :: r in rs <==> exists o | o in os :: r in JoinRowsOf(db, o)
  {
    if |os| == 0 then []
    else
      var rest := JoinRowsFrom(db, os[1..]);
      assert forall o | o in os :: o == os[0] || o in os[1..];
      JoinRowsOf(db, os[0]) + rest
  }

  /** The value a count query yields: every order for a count of all; for a
      search, the distinct orders among the join rows that pass it, which is
      none exactly when no join row passes. */
  function Count(db: Database, q: CountQuery): (n: nat)
    ensures q.CountAll? ==> n == |db.orders|
    ensures q.CountDistinct? ==> (n == 0 <==> forall r | r in AllJoinRows(db) :: !SearchClause(q.search, r))
  {
    match q
    case CountAll => |db.orders|
    case CountDistinct(search) =>
      MatchedIdsEmpty(AllJoinRows(db), search);
      |set r | r in AllJoinRows(db) && SearchClause(search, r) :: r.order.id|
  }

  /** No order id is collected exactly when no row passes the search condition. */
  lemma MatchedIdsEmpty(rs: seq<JoinRow>, search: string)
    ensures (set r | r in rs && SearchClause(search, r) :: r.order.id) == {} <==>
      forall r | r in rs :: !SearchClause(search, r)
  {
    var ids := set r | r in rs && SearchClause(search, r) :: r.order.id;
    if r :| r in rs && SearchClause(search, r) {
      assert r.order.id in ids;
    }
  }

  // ---------------------------------------------------------------------------
  // Which orders are listed

  /** The customer `c`, line item `it` and product `p` are stored rows the
      order's foreign keys connect, and with a non-empty search, the customer's
      name or the product's name contains the search text, ignoring letter case. */
  ghost predicate HitBy(db: Database, o: Order, search: string, c: Customer, it: OrderItem, p: Product) {
    && c in db.customers && it in db.items && p in db.products
    && c.id == o.customerId && it.orderId == o.id && p.id == it.productId
    && (search == [] || Occurs(Lower(c.name), Lower(search)) || Occurs(Lower(p.name), Lower(search)))
  }

  /** The reference meaning of the search: some line item of the order,
      with its customer and product, is a hit. */
  ghost predicate SearchHit(db: Database, o: Order, search: string) {
    exists c, it, p :: HitBy(db, o, search, c, it, p)
  }

  lemma GroupRowSome(db: Database, o: Order, search: string)
    requires o in db.orders
    ensures GroupRow(db, o, search).Some? <==>
      exists r | r in JoinRowsOf(db, o) :: search == [] || SearchClause(search, r)
  {
    var rs := MatchingRows(db, o, search);
    if |rs| > 0 {
      assert rs[0] in rs;
    }
  }

  lemma ListedIsSearchHit(db: Database, o: Order, search: string)
    requires o in db.orders && NoWildcards(search)
    requires GroupRow(db, o, search).Some?
    ensures SearchHit(db, o, search)
  {
    GroupRowSome(db, o, search);
    var r :| r in JoinRowsOf(db, o) && (search == [] || SearchClause(search, r));
    JoinRowsOfMembers(db, o, r);
    ILikeSurroundIsOccurs(r.customer.name, search);
    ILikeSurroundIsOccurs(r.product.name, search);
    assert HitBy(db, o, search, r.customer, r.item, r.product);
  }

  lemma SearchHitIsListed(db: Database, o: Order, search: string)
    requires o in db.orders && NoWildcards(search)
    requires SearchHit(db, o, search)
    ensures GroupRow(db, o, search).Some?
  {
    var c, it, p :| HitBy(db, o, search, c, it, p);
    var r := JoinRow(o, c, it, p);
    JoinRowsOfMembers(db, o, r);
    ILikeSurroundIsOccurs(c.name, search);
    ILikeSurroundIsOccurs(p.name, search);
    assert search == [] || SearchClause(search, r);
    GroupRowSome(db, o, search);
  }

  /** For a search with no LIKE wildcards, an order is listed exactly when it
      has a line item matching the search in the sense above. */
  lemma ListedIffSearchHit(db: Database, o: Order, search: string)
    requires o in db.orders && NoWildcards(search)
    ensures GroupRow(db, o, search).Some? <==> SearchHit(db, o, search)
  {
    if GroupRow(db, o, search).Some? {
      ListedIsSearchHit(db, o, search);
    }
    if SearchHit(db, o, search) {
      SearchHitIsListed(db, o, search);
    }
  }

  /** With no search, an order is listed exactly when it has a line item: the
      inner join drops orders without items. */
  lemma ListedIffHasItems(db: Database, o: Order)
    requires o in db.orders
    ensures GroupRow(db, o, []).Some? <==> |ItemsOf(db.items, o.id)| > 0
  {
  }

  /** A listed row belongs to an order of the database and carries its customer. */
  lemma ListingRowsStored(db: Database, search: string, row: Row)
    requires row in ListingRows(db, search)
    ensures row.order in db.orders
    ensures row.customer in db.customers && row.customer.id == row.order.customerId
  {
    GroupedMembers(db, db.orders, search);
  }

  /** No two listed rows share an order: GROUP BY yields one row per order. */
  predicate DistinctOrders(rows: seq<Row>) {
    forall i, j | 0 <= i < j < |rows| :: rows[i].order.id != rows[j].order.id
  }

  lemma TailKeys(os: seq<Order>)
    requires |os| > 0 && OrderKeys(os)
    ensures OrderKeys(os[1..])
    ensures forall o | o in os[1..] :: o.id != os[0].id
  {
    forall i, j | 0 <= i < j < |os[1..]| ensures os[1..][i].id != os[1..][j].id {
      assert os[1..][i] == os[i + 1] && os[1..][j] == os[j + 1];
    }
    forall o | o in os[1..] ensures o.id != os[0].id {
      var k :| 0 <= k < |os[1..]| && os[1..][k] == o;
      assert os[k + 1] == o;
    }
  }

  lemma ConsDistinct(row: Row, rest: seq<Row>)
    requires DistinctOrders(rest)
    requires forall r | r in rest :: r.order.id != row.order.id
    ensures DistinctOrders([row] + rest)
  {
    var rows := [row] + rest;
    forall i, j | 0 <= i < j < |rows| ensures rows[i].order.id != rows[j].order.id {
      assert rows[j] == rest[j - 1];
      if i > 0 {
        assert rows[i] == rest[i - 1];
      }
    }
  }

  lemma {:induction false} GroupedDistinct(db: Database, os: seq<Order>, search: string)
    requires forall o | o in os :: o in db.orders
    requires OrderKeys(os)
    ensures DistinctOrders(Grouped(db, os, search))
    decreases |os|
  {
    if |os| > 0 {
      TailKeys(os);
      GroupedDistinct(db, os[1..], search);
      GroupedMembers(db, os[1..], search);
      var rest := Grouped(db, os[1..], search);
      match GroupRow(db, os[0], search)
      case None =>
      case Some(row) =>
        ConsDistinct(row, rest);
    }
  }

  /** With no search, an order is listed exactly when it has line items, and
      then with its full total; by `ListingRows`, it is listed once. */
  lemma EmptySearchListing(db: Database, o: Order)
    requires o in db.orders
    ensures (exists row | row in ListingRows(db, []) :: row.order == o) <==> |ItemsOf(db.items, o.id)| > 0
    ensures forall row | row in ListingRows(db, []) && row.order == o :: row.total == OrderTotal(db, o)
  {
    GroupedMembers(db, db.orders, []);
    if |ItemsOf(db.items, o.id)| > 0 {
      assert GroupRow(db, o, []).value in ListingRows(db, []);
      TotalIsOrderTotal(db, o, []);
    }
  }

  // ---------------------------------------------------------------------------
  // Totals

  lemma {:induction false} SumLinesOfItems(rs: seq<JoinRow>, its: seq<OrderItem>)
    requires |rs| == |its|
    requires forall i | 0 <= i < |rs| :: rs[i].item == its[i]
    ensures SumLines(rs) == ItemsTotal(its)
    decreases |rs|
  {
    if |rs| > 0 {
      SumLinesOfItems(rs[1..], its[1..]);
    }
  }

  lemma FilterKeepsAll(search: string, rs: seq<JoinRow>)
    requires forall r | r in rs :: SearchClause(search, r)
    ensures Filter(search, rs) == rs
  {
    if |rs| > 0 {
      FilterKeepsAll(search, rs[1..]);
    }
  }

  /** A listed order's total is the order's own total when there is no search,
      or when the search matches its customer's name: then no line item is
      filtered out before grouping. */
  lemma TotalIsOrderTotal(db: Database, o: Order, search: string)
    requires o in db.orders
    requires GroupRow(db, o, search).Some?
    requires search == [] || ILike(GroupRow(db, o, search).value.customer.name, Surround(search))
    ensures GroupRow(db, o, search).value.total == OrderTotal(db, o)
  {
    var rs := JoinRowsOf(db, o);
    if search != [] {
      var rows := MatchingRows(db, o, search);
      assert rows[0] in rs;
      FilterKeepsAll(search, rs);
    }
    SumLinesOfItems(rs, ItemsOf(db.items, o.id));
  }

  /** The rows of an order whose customer's name matches but some of whose
      products do not are all kept: the listing total of such an order is
      never partial. Conversely, when only product names match, the total
      sums just the matching items (`ProductSearchTotal`). */
  lemma CustomerMatchKeepsAllRows(db: Database, o: Order, search: string)
    requires o in db.orders && search != []
    requires ILike(FindCustomer(db.customers, o.customerId).value.name, Surround(search))
    ensures MatchingRows(db, o, search) == JoinRowsOf(db, o)
  {
    var rs := JoinRowsOf(db, o);
    forall r | r in rs ensures SearchClause(search, r) {
      JoinRowsOfMembers(db, o, r);
      FindCustomerUnique(db, r.customer);
    }
    FilterKeepsAll(search, rs);
  }

  /** The line items whose product's name contains the search text, ignoring
      letter case, in table order. */
  ghost function ProductHits(ps: seq<Product>, its: seq<OrderItem>, search: string): seq<OrderItem>
    requires forall it | it in its :: FindProduct(ps, it.productId).Some?
  {
    if |its| == 0 then []
    else
      var p := FindProduct(ps, its[0].productId).value;
      var rest := ProductHits(ps, its[1..], search);
      if Occurs(Lower(p.name), Lower(search)) then [its[0]] + rest else rest
  }

  /** A join row whose customer does not match passes the search condition
      exactly when the search occurs in its product's name. */
  lemma RowMatchesByProduct(search: string, r: JoinRow)
    requires NoWildcards(search) && !ILike(r.customer.name, Surround(search))
    ensures SearchClause(search, r) <==> Occurs(Lower(r.product.name), Lower(search))
  {
    ILikeSurroundIsOccurs(r.product.name, search);
  }

  lemma {:induction false} FilterByProduct(ps: seq<Product>, rs: seq<JoinRow>, its: seq<OrderItem>, search: string)
    requires NoWildcards(search)
    requires forall it | it in its :: FindProduct(ps, it.productId).Some?
    requires |rs| == |its|
    requires forall i | 0 <= i < |rs| :: rs[i].item == its[i] && rs[i].product == FindProduct(ps, its[i].productId).value
    requires forall i | 0 <= i < |rs| :: !ILike(rs[i].customer.name, Surround(search))
    ensures |Filter(search, rs)| == |ProductHits(ps, its, search)|
    ensures SumLines(Filter(search, rs)) == ItemsTotal(ProductHits(ps, its, search))
    decreases |rs|
  {
    if |rs| > 0 {
      assert forall i | 0 <= i < |rs| - 1 :: rs[1..][i] == rs[i + 1] && its[1..][i] == its[i + 1];
      FilterByProduct(ps, rs[1..], its[1..], search);
      RowMatchesByProduct(search, rs[0]);
      var t := Filter(search, rs[1..]);
      var h := ProductHits(ps, its[1..], search);
      if SearchClause(search, rs[0]) {
        assert Filter(search, rs) == [rs[0]] + t;
        assert ProductHits(ps, its, search) == [its[0]] + h;
        assert ([rs[0]] + t)[1..] == t;
        assert ([its[0]] + h)[1..] == h;
      } else {
        assert Filter(search, rs) == t;
        assert ProductHits(ps, its, search) == h;
      }
    }
  }

  /** When the search does not occur in the customer's name, the order is listed
      exactly when it occurs in the name of some item's product, and the total
      then sums quantity times unit price over just those items. */
  lemma ProductSearchTotal(db: Database, o: Order, search: string)
    requires o in db.orders && search != [] && NoWildcards(search)
    requires !Occurs(Lower(FindCustomer(db.customers, o.customerId).value.name), Lower(search))
    ensures var hits := ProductHits(db.products, ItemsOf(db.items, o.id), search);
      && (GroupRow(db, o, search).Some? <==> |hits| > 0)
      && (GroupRow(db, o, search).Some? ==> GroupRow(db, o, search).value.total == ItemsTotal(hits))
  {
    var l := Load(db, o);
    var rs := JoinRowsOf(db, o);
    var its := ItemsOf(db.items, o.id);
    assert rs == RowsOfLines(o, l.customer, l.lines);
    assert l.customer == FindCustomer(db.customers, o.customerId).value;
    ILikeSurroundIsOccurs(l.customer.name, search);
    forall i | 0 <= i < |rs|
      ensures rs[i].product == FindProduct(db.products, its[i].productId).value
      ensures !ILike(rs[i].customer.name, Surround(search))
    {
      FindProductUnique(db, l.lines[i].product);
    }
    FilterByProduct(db.products, rs, its, search);
  }

  // ---------------------------------------------------------------------------
  // The count beside the listing

  /** The order ids of the rows. */
  function IdSet(rows: seq<Row>): set<Uuid> {
    if |rows| == 0 then {} else {rows[0].order.id} + IdSet(rows[1..])
  }

  lemma {:induction false} IdSetMembers(rows: seq<Row>)
    ensures forall x :: x in IdSet(rows) <==> exists row | row in rows :: row.order.id == x
    decreases |rows|
  {
    if |rows| > 0 {
      IdSetMembers(rows[1..]);
      assert forall row | row in rows :: row == rows[0] || row in rows[1..];
    }
  }

  lemma {:induction false} IdSetSize(rows: seq<Row>)
    requires DistinctOrders(rows)
    ensures |IdSet(rows)| == |rows|
    decreases |rows|
  {
    if |rows| > 0 {
      var rest := rows[1..];
      assert DistinctOrders(rest) by {
        forall i, j | 0 <= i < j < |rest| ensures rest[i].order.id != rest[j].order.id {
          assert rest[i] == rows[i + 1] && rest[j] == rows[j + 1];
        }
      }
      IdSetSize(rest);
      assert rows[0].order.id !in IdSet(rest) by {
        forall k | 0 <= k < |rest| ensures rest[k].order.id != rows[0].order.id {
          assert rest[k] == rows[k + 1];
        }
        IdSetMissing(rest, rows[0].order.id);
      }
    }
  }

  lemma {:induction false} IdSetMissing(rows: seq<Row>, x: Uuid)
    requires forall k | 0 <= k < |rows| :: rows[k].order.id != x
    ensures x !in IdSet(rows)
    decreases |rows|
  {
    if |rows| > 0 {
      IdSetMissing(rows[1..], x);
    }
  }

  lemma MatchedIsListed(db: Database, search: string, r: JoinRow)
    requires search != [] && r in AllJoinRows(db) && SearchClause(search, r)
    ensures r.order.id in IdSet(ListingRows(db, search))
  {
    var o :| o in db.orders && r in JoinRowsOf(db, o);
    GroupRowSome(db, o, search);
    GroupedMembers(db, db.orders, search);
    IdSetMembers(ListingRows(db, search));
    assert GroupRow(db, o, search).value in ListingRows(db, search);
  }

  lemma ListedIsMatched(db: Database, search: string, x: Uuid)
    requires search != [] && x in IdSet(ListingRows(db, search))
    ensures exists r | r in AllJoinRows(db) && SearchClause(search, r) :: r.order.id == x
  {
    var rows := ListingRows(db, search);
    IdSetMembers(rows);
    GroupedMembers(db, db.orders, search);
    var row :| row in rows && row.order.id == x;
    var o := row.order;
    GroupRowSome(db, o, search);
    var r :| r in JoinRowsOf(db, o) && SearchClause(search, r);
    assert r in AllJoinRows(db);
  }

  lemma MatchingIdsAreListed(db: Database, search: string)
    requires search != []
    ensures (set r | r in AllJoinRows(db) && SearchClause(search, r) :: r.order.id) == IdSet(ListingRows(db, search))
  {
    var lhs := set r | r in AllJoinRows(db) && SearchClause(search, r) :: r.order.id;
    forall r | r in AllJoinRows(db) && SearchClause(search, r) ensures r.order.id in IdSet(ListingRows(db, search)) {
      MatchedIsListed(db, search, r);
    }
    forall x | x in IdSet(ListingRows(db, search)) ensures x in lhs {
      ListedIsMatched(db, search, x);
    }
  }

  /** With a search, the count `total_orders` reports equals the number of rows
      `paginated_orders` yields. */
  lemma SearchCountMatchesListing(db: Database, search: string)
    requires search != []
    ensures Count(db, TotalOrders(search)) == |ListingRows(db, search)|
  {
    MatchingIdsAreListed(db, search);
    IdSetSize(ListingRows(db, search));
  }

  /** The rows that are present, in order. */
  function Present(gs: seq<Option<Row>>): (rows: seq<Row>)
    ensures |rows| <= |gs|
    ensures |rows| == |gs| <==> forall i | 0 <= i < |gs| :: gs[i].Some?
  {
    if |gs| == 0 then []
    else
      var rest := Present(gs[1..]);
      assert forall i | 1 <= i < |gs| :: gs[i] == gs[1..][i - 1];
      if gs[0].Some? then [gs[0].value] + rest else rest
  }

  /** The group of each order, present or not, in order. */
  function GroupsOf(db: Database, os: seq<Order>, search: string): (gs: seq<Option<Row>>)
    requires forall o | o in os :: o in db.orders
    ensures |gs| == |os|
    ensures forall i | 0 <= i < |os| :: gs[i] == GroupRow(db, os[i], search)
  {
    seq(|os|, i requires 0 <= i < |os| => GroupRow(db, os[i], search))
  }

  lemma {:induction false} GroupedIsPresent(db: Database, os: seq<Order>, search: string)
    requires forall o | o in os :: o in db.orders
    ensures Grouped(db, os, search) == Present(GroupsOf(db, os, search))
    decreases |os|
  {
    if |os| > 0 {
      GroupedIsPresent(db, os[1..], search);
      assert GroupsOf(db, os[1..], search) == GroupsOf(db, os, search)[1..];
    }
  }

  lemma GroupedAll(db: Database, os: seq<Order>, search: string)
    requires forall o | o in os :: o in db.orders
    ensures |Grouped(db, os, search)| == |os| <==> forall o | o in os :: GroupRow(db, o, search).Some?
  {
    GroupedIsPresent(db, os, search);
    var gs := GroupsOf(db, os, search);
    assert |Grouped(db, os, search)| == |os| <==> forall i | 0 <= i < |gs| :: gs[i].Some?;
    EveryGroupPresent(db, os, search);
  }

  lemma EveryGroupPresent(db: Database, os: seq<Order>, search: string)
    requires forall o | o in os :: o in db.orders
    ensures (forall i | 0 <= i < |os| :: GroupsOf(db, os, search)[i].Some?) <==>
      forall o | o in os :: GroupRow(db, o, search).Some?
  {
    var gs := GroupsOf(db, os, search);
    if forall i | 0 <= i < |os| :: gs[i].Some? {
      forall o | o in os ensures GroupRow(db, o, search).Some? {
        var k :| 0 <= k < |os| && os[k] == o;
        assert gs[k].Some?;
      }
    }
  }

  /** With no search, the count is the number of orders, which is at least the
      number of listed rows, and equal to it exactly when every order has a line item. */
  lemma EmptySearchCount(db: Database)
    ensures Count(db, TotalOrders([])) == |db.orders| >= |ListingRows(db, [])|
    ensures Count(db, TotalOrders([])) == |ListingRows(db, [])| <==>
      forall o | o in db.orders :: |ItemsOf(db.items, o.id)| > 0
  {
    GroupedAll(db, db.orders, []);
  }

  /** Any answer to a listing query with a search has as many rows as the count
      query for the same search reports. */
  lemma ListingSizeIsCount(db: Database, q: ListingQuery, rows: seq<Row>)
    requires IsListing(db, q, rows) && q.search != []
    ensures |rows| == Count(db, TotalOrders(q.search))
  {
    SearchCountMatchesListing(db, q.search);
    assert |multiset(rows)| == |multiset(ListingRows(db, q.search))|;
  }

  /** The count query for a search is the count of distinct matching orders,
      and it never exceeds the number of orders. */
  lemma SearchCountBound(db: Database, search: string)
    requires search != []
    ensures Count(db, TotalOrders(search)) <= |db.orders|
  {
    SearchCountMatchesListing(db, search);
  }

  // ---------------------------------------------------------------------------
  // Ordering of the answer

  /** A query whose first ORDER BY key is the total, descending, lists the
      orders from the largest total down. */
  lemma LeadingTotalDescending(db: Database, q: ListingQuery)
    requires |q.orderBy| > 0 && q.orderBy[0] == SortKey(Total, Desc)
    ensures var rows := Execute(db, q);
      forall i, j | 0 <= i < j < |rows| :: rows[i].total >= rows[j].total
  {
    var rows := Execute(db, q);
    assert Sorted(q.orderBy, rows);
    forall i, j | 0 <= i < j < |rows| ensures rows[i].total >= rows[j].total {
      LeadingTotalPair(q.orderBy, rows[i], rows[j]);
    }
  }

  lemma LeadingTotalPair(keys: seq<SortKey>, a: Row, b: Row)
    requires |keys| > 0 && keys[0] == SortKey(Total, Desc) && Leq(keys, a, b)
    ensures a.total >= b.total
  {
  }

  /** `sort=-total` asks for exactly that order, whatever page parameters that convert. */
  lemma SortByTotalDescending(search: string, start: Option<string>, length: Option<string>)
    requires PageArgOk(start) && PageArgOk(length)
    ensures PaginatedOrders(search, start, length, "-total") == Success(ListingQuery(search, [SortKey(Total, Desc)]))
  {
    DescendingTotal();
  }

  /** Keys total-descending then customer-ascending, as `sort=-total,+customer`
      asks for, list the orders from the largest total down, and orders with
      equal totals by their customer's name. */
  lemma TotalThenCustomerOrder(db: Database, q: ListingQuery)
    requires q.orderBy == [SortKey(Total, Desc), SortKey(CustomerName, Asc)]
    ensures var rows := Execute(db, q);
      forall i, j | 0 <= i < j < |rows| :: TotalThenName(rows[i], rows[j])
  {
    var rows := Execute(db, q);
    forall i, j | 0 <= i < j < |rows| ensures TotalThenName(rows[i], rows[j]) {
      TotalThenNamePair(q.orderBy, rows[i], rows[j]);
    }
  }

  /** `a` may come before `b` when ordered by total, largest first, then by customer name. */
  predicate TotalThenName(a: Row, b: Row) {
    || a.total > b.total
    || (a.total == b.total && (a.customer.name == b.customer.name || Less(a.customer.name, b.customer.name)))
  }

  lemma TotalThenNamePair(keys: seq<SortKey>, a: Row, b: Row)
    requires keys == [SortKey(Total, Desc), SortKey(CustomerName, Asc)] && Leq(keys, a, b)
    ensures TotalThenName(a, b)
  {
    assert keys[1..] == [SortKey(CustomerName, Asc)] && keys[1..][1..] == [];
    var c1 := CompareKey(keys[0], a, b);
    var c2 := CompareKey(keys[1], a, b);
    assert Compare(keys[1..][1..], a, b) == 0;
    assert Compare(keys[1..], a, b) == c2;
    assert Compare(keys, a, b) == if c1 != 0 then c1 else c2;
  }
}

=== FILE: queries_example.dfy ===
/** One worked order: the customer Alice bought 10 × 2 of the product Zed and
    5 × 1 of the product Amber. Each lemma takes any database in which the
    order joins to exactly those two rows. */
module QueryExamples {
  import opened Wrappers
  import opened Text
  import opened SqlLike
  import opened Models
  import opened Ordering
  import opened Queries

  const alice := Customer(1, "Alice", None, None)
  const zed := Product(1, "Zed", 1982, None, Json.Null, [])
  const amber := Product(2, "Amber", 1984, None, Json.Null, [])

  /** The join rows of an order `o` of Alice's: her two line items. */
  function AliceRows(o: Order): seq<JoinRow> {
    [JoinRow(o, alice, OrderItem(1, o.id, 10, 2), zed),
     JoinRow(o, alice, OrderItem(2, o.id, 5, 1), amber)]
  }

  /** A search text whose first character is nowhere in `s` does not occur in it. */
  lemma {:induction false} AbsentFirstChar(s: string, n: string)
    requires |n| > 0 && forall k | 0 <= k < |s| :: s[k] != n[0]
    ensures !Occurs(s, n)
  {
    forall i | 0 <= i <= |s| ensures !IsPrefix(n, s[i..]) {
      if |n| <= |s| - i {
        assert s[i..][..|n|][0] == s[i];
      }
    }
  }

  lemma NameMisses(search: string, s: string)
    requires NoWildcards(search) && |search| > 0
    requires forall k | 0 <= k < |s| :: LowerChar(s[k]) != LowerChar(search[0])
    ensures !ILike(s, Surround(search))
  {
    ILikeSurroundIsOccurs(s, search);
    AbsentFirstChar(Lower(s), Lower(search));
  }

  lemma NameMatches(s: string)
    requires NoWildcards(s)
    ensures ILike(s, Surround(s))
  {
    ILikeSurroundIsOccurs(s, s);
    assert IsPrefix(Lower(s), Lower(s)[0..]);
  }

  /** GROUP BY of two join rows after the search, by which of them pass it. */
  lemma TwoRowGroup(o: Order, search: string, a: JoinRow, b: JoinRow)
    requires search != []
    ensures SearchClause(search, a) && SearchClause(search, b) ==>
      Group(o, Where(search, [a, b])) == Some(Row(o, a.customer, a.item.quantity * a.item.unitPrice + b.item.quantity * b.item.unitPrice))
    ensures SearchClause(search, a) && !SearchClause(search, b) ==>
      Group(o, Where(search, [a, b])) == Some(Row(o, a.customer, a.item.quantity * a.item.unitPrice))
    ensures !SearchClause(search, a) && SearchClause(search, b) ==>
      Group(o, Where(search, [a, b])) == Some(Row(o, b.customer, b.item.quantity * b.item.unitPrice))
    ensures !SearchClause(search, a) && !SearchClause(search, b) ==> Group(o, Where(search, [a, b])).None?
  {
    var rs := [a, b];
    assert rs[1..] == [b] && [b][1..] == [] && [a][1..] == [];
    assert Filter(search, [b]) == (if SearchClause(search, b) then [b] else []);
    assert Filter(search, rs) == (if SearchClause(search, a) then [a] else []) + Filter(search, [b]);
    assert SumLines([a]) == a.item.quantity * a.item.unitPrice;
    assert SumLines(rs) == a.item.quantity * a.item.unitPrice + SumLines([b]);
  }

  /** The order's own total is 10 × 2 + 5 × 1 = 25. */
  lemma AliceOrderTotal(o: Order)
    ensures SumLines(AliceRows(o)) == 25
  {
    var rs := AliceRows(o);
    assert rs[1..] == [rs[1]] && [rs[1]][1..] == [];
    assert SumLines([rs[1]]) == 5;
  }

  /** Searching the customer's name lists the order with its full total. */
  lemma CustomerSearchFullTotal(o: Order)
    ensures Group(o, Where("Alice", AliceRows(o))) == Some(Row(o, alice, 25))
  {
    NameMatches("Alice");
    TwoRowGroup(o, "Alice", AliceRows(o)[0], AliceRows(o)[1]);
  }

  /** Searching one product's name lists the order with a total over the
      matching line item alone: 20, not the order's 25. The WHERE clause
      removes the Amber row before the rows are grouped and summed. */
  lemma ProductSearchPartialTotal(o: Order)
    ensures Group(o, Where("Zed", AliceRows(o))) == Some(Row(o, alice, 20))
    ensures SumLines(AliceRows(o)) == 25
  {
    NameMatches("Zed");
    NameMisses("Zed", "Alice");
    NameMisses("Zed", "Amber");
    TwoRowGroup(o, "Zed", AliceRows(o)[0], AliceRows(o)[1]);
    AliceOrderTotal(o);
  }

  /** A wildcard-free search leaves the order out of the listing exactly when
      none of the three names (Alice, Zed, Amber) contains it, ignoring case. */
  lemma UnmatchedSearchOmitsOrder(o: Order, search: string)
    requires search != [] && NoWildcards(search)
    ensures Group(o, Where(search, AliceRows(o))).None? <==>
      && !Occurs(Lower(alice.name), Lower(search))
      && !Occurs(Lower(zed.name), Lower(search))
      && !Occurs(Lower(amber.name), Lower(search))
  {
    ILikeSurroundIsOccurs(alice.name, search);
    ILikeSurroundIsOccurs(zed.name, search);
    ILikeSurroundIsOccurs(amber.name, search);
    TwoRowGroup(o, search, AliceRows(o)[0], AliceRows(o)[1]);
  }

  /** For instance, the search "Kim" leaves it out. */
  lemma KimOmitsOrder(o: Order)
    ensures Group(o, Where("Kim", AliceRows(o))).None?
  {
    NameMisses("Kim", "Alice");
    NameMisses("Kim", "Zed");
    NameMisses("Kim", "Amber");
    TwoRowGroup(o, "Kim", AliceRows(o)[0], AliceRows(o)[1]);
  }

  /** In a database where an order joins to exactly Alice's two rows, the
      listing row for the search "Zed" carries the partial total 20. */
  lemma PartialTotalInDatabase(db: Database, o: Order)
    requires o in db.orders && JoinRowsOf(db, o) == AliceRows(o)
    ensures GroupRow(db, o, "Zed") == Some(Row(o, alice, 20))
    ensures OrderTotal(db, o) == 25
  {
    ProductSearchPartialTotal(o);
    SumLinesOfItems(JoinRowsOf(db, o), ItemsOf(db.items, o.id));
  }
}

=== FILE: serialize.dfy ===
/** The `to_dict` serialisers of the entities the order listing returns, and
    decoders that read the dicts back, to state that the serialisers lose
    nothing the listing needs. */
module Serialize {
  import opened Wrappers
  import opened Json
  import opened Models
  import Hex

  /** `Customer.to_dict`: the id as its 32-digit hex form, the name, and the
      optional address and phone (`None` when absent). */
  function CustomerToDict(c: Customer): (r: Value)
    ensures r.Object? && r.keys == ["id", "name", "address", "phone"]
    ensures Get(r, "id") == Some(Str(Hex.UuidHex(c.id)))
    ensures Get(r, "name") == Some(Str(c.name))
    ensures Get(r, "address") == Some(if c.address.None? then Null else Str(c.address.value))
    ensures Get(r, "phone") == Some(if c.phone.None? then Null else Str(c.phone.value))
  {
    var keys := ["id", "name", "address", "phone"];
    var vals := [Str(Hex.UuidHex(c.id)), Str(c.name), OptionalStr(c.address), OptionalStr(c.phone)];
    Dict4(keys[0], keys[1], keys[2], keys[3], vals[0], vals[1], vals[2], vals[3]);
    Object(keys, vals)
  }

  /** The keys of `Product.to_dict`, in insertion order. */
  const ProductDictKeys: seq<string> := ["id", "name", "manufacturer", "year", "cpu", "countries"]

  lemma ProductDictKeysDistinct()
    ensures forall i, j | 0 <= i < j < |ProductDictKeys| :: ProductDictKeys[i] != ProductDictKeys[j]
  {
    var ks := ProductDictKeys;
    assert ks[0][0] == 'i' && ks[1][0] == 'n' && ks[2][0] == 'm' && ks[3][0] == 'y' && ks[4][0] == 'c' && ks[5][0] == 'c';
    assert ks[4][1] == 'p' && ks[5][1] == 'o';
  }

  /** `Product.to_dict`: exactly the keys id, name, manufacturer, year, cpu and
      countries; `ProductDictFields` states what each holds. */
  function ProductToDict(p: Product): (r: Value)
    ensures r.Object? && r.keys == ProductDictKeys && |r.vals| == |ProductDictKeys|
    ensures Get(r, "id") == Some(Int(p.id))
  {
    var vals := [Int(p.id), Str(p.name), p.manufacturer, Int(p.year), OptionalStr(p.cpu), Array(p.countries)];
    LookupAt(ProductDictKeys, vals, 0);
    Object(ProductDictKeys, vals)
  }

  /** The product dict holds the product's id, name, year and cpu (`None` when
      absent), its manufacturer's dict and the list of its countries' dicts. */
  lemma ProductDictFields(p: Product)
    ensures var r := ProductToDict(p);
      && Get(r, "id") == Some(Int(p.id))
      && Get(r, "name") == Some(Str(p.name))
      && Get(r, "manufacturer") == Some(p.manufacturer)
      && Get(r, "year") == Some(Int(p.year))
      && Get(r, "cpu") == Some(if p.cpu.None? then Null else Str(p.cpu.value))
      && Get(r, "countries") == Some(Array(p.countries))
  {
    var r := ProductToDict(p);
    ProductDictKeysDistinct();
    DictLookups(ProductDictKeys, r.vals);
    var ks := ProductDictKeys;
    assert ks[0] == "id" && ks[1] == "name" && ks[2] == "manufacturer" && ks[3] == "year" && ks[4] == "cpu" && ks[5] == "countries";
  }

  /** `OrderItem.to_dict`: the nested product, and the quantity and unit price copied unchanged. */
  function OrderItemToDict(p: Product, it: OrderItem): (r: Value)
    ensures r.Object? && r.keys == ["product", "quantity", "unit_price"]
    ensures Get(r, "product") == Some(ProductToDict(p))
    ensures Get(r, "quantity") == Some(Int(it.quantity))
    ensures Get(r, "unit_price") == Some(Int(it.unitPrice))
  {
    var keys := ["product", "quantity", "unit_price"];
    var vals := [ProductToDict(p), Int(it.quantity), Int(it.unitPrice)];
    LookupAt(keys, vals, 0);
    LookupAt(keys, vals, 1);
    LookupAt(keys, vals, 2);
    Object(keys, vals)
  }

  /** The dicts of the line items, one per item, in the same order. */
  function ItemDicts(lines: seq<Line>): (r: seq<Value>)
    ensures |r| == |lines|
    ensures forall i :: 0 <= i < |r| ==> r[i] == OrderItemToDict(lines[i].product, lines[i].item)
  {
    seq(|lines|, i requires 0 <= i < |lines| => OrderItemToDict(lines[i].product, lines[i].item))
  }

  /** `Order.to_dict`: exactly the keys id, timestamp, customer and order_items,
      so no total. */
  function OrderToDict(l: LoadedOrder): (r: Value)
    ensures r.Object? && r.keys == ["id", "timestamp", "customer", "order_items"] && |r.vals| == 4
    ensures "total" !in r.keys
  {
    Object(["id", "timestamp", "customer", "order_items"],
      [UuidValue(l.order.id), Timestamp(l.order.timestamp), CustomerToDict(l.customer), Array(ItemDicts(l.lines))])
  }

  /** The order dict holds the order's id and timestamp, its customer's dict,
      and one dict per line item, in the same order. */
  lemma OrderDictFields(l: LoadedOrder)
    ensures var r := OrderToDict(l);
      && Get(r, "id") == Some(UuidValue(l.order.id))
      && Get(r, "timestamp") == Some(Timestamp(l.order.timestamp))
      && Get(r, "customer") == Some(CustomerToDict(l.customer))
      && Get(r, "order_items") == Some(Array(ItemDicts(l.lines)))
  {
    var r := OrderToDict(l);
    Dict4(r.keys[0], r.keys[1], r.keys[2], r.keys[3], r.vals[0], r.vals[1], r.vals[2], r.vals[3]);
  }

  /** Reads an optional string back: `None` or a string. */
  function OptionalStrFrom(v: Value): Option<Option<string>> {
    match v
    case Null => Some(None)
    case Str(s) => Some(Some(s))
    case _ => None
  }

  function StrFrom(v: Value): Option<string> {
    if v.Str? then Some(v.s) else None
  }

  function IntFrom(v: Value): Option<int> {
    if v.Int? then Some(v.i) else None
  }

  function UuidFrom(n: nat): Option<Uuid> {
    if n < Hex.UuidBound then Some(n) else None
  }

  function CustomerFromDict(v: Value): Option<Customer> {
    var idv :- Get(v, "id");
    var h :- StrFrom(idv);
    var n :- Hex.Parse(h);
    var id :- UuidFrom(n);
    var namev :- Get(v, "name");
    var name :- StrFrom(namev);
    var addressv :- Get(v, "address");
    var address :- OptionalStrFrom(addressv);
    var phonev :- Get(v, "phone");
    var phone :- OptionalStrFrom(phonev);
    Some(Customer(id, name, address, phone))
  }

  function ArrayFrom(v: Value): Option<seq<Value>> {
    if v.Array? then Some(v.elems) else None
  }

  /** Reads a product back from its dict. */
  function ProductFromDict(v: Value): Option<Product> {
    var idv :- Get(v, "id");
    var id :- IntFrom(idv);
    var namev :- Get(v, "name");
    var name :- StrFrom(namev);
    var manufacturer :- Get(v, "manufacturer");
    var yearv :- Get(v, "year");
    var year :- IntFrom(yearv);
    var cpuv :- Get(v, "cpu");
    var cpu :- OptionalStrFrom(cpuv);
    var countriesv :- Get(v, "countries");
    var countries :- ArrayFrom(countriesv);
    Some(Product(id, name, year, cpu, manufacturer, countries))
  }

  /** The product dict keeps everything about the product: decoding gives it back. */
  lemma ProductRoundTrip(p: Product)
    ensures ProductFromDict(ProductToDict(p)) == Some(p)
  {
    ProductDictFields(p);
    ProductDecode(ProductToDict(p), p);
  }

  /** A product dict decodes field by field. */
  lemma ProductDecode(v: Value, p: Product)
    requires Get(v, "id") == Some(Int(p.id)) && Get(v, "name") == Some(Str(p.name))
    requires Get(v, "manufacturer") == Some(p.manufacturer) && Get(v, "year") == Some(Int(p.year))
    requires Get(v, "cpu") == Some(OptionalStr(p.cpu)) && Get(v, "countries") == Some(Array(p.countries))
    ensures ProductFromDict(v) == Some(p)
  {
    assert OptionalStrFrom(OptionalStr(p.cpu)) == Some(p.cpu);
  }

  /** Reads a line item of the order `orderId` back from its dict. */
  function OrderItemFromDict(v: Value, orderId: Uuid): Option<OrderItem> {
    var pv :- Get(v, "product");
    var pidv :- Get(pv, "id");
    var productId :- IntFrom(pidv);
    var qv :- Get(v, "quantity");
    var quantity :- IntFrom(qv);
    var uv :- Get(v, "unit_price");
    var price :- IntFrom(uv);
    Some(OrderItem(productId, orderId, price, quantity))
  }

  function OrderItemsFromDicts(vs: seq<Value>, orderId: Uuid): Option<seq<OrderItem>> {
    if |vs| == 0 then Some([])
    else
      var it :- OrderItemFromDict(vs[0], orderId);
      var rest :- OrderItemsFromDicts(vs[1..], orderId);
      Some([it] + rest)
  }

  /** Reads an order, its customer and its line items back from the order's dict. */
  function OrderFromDict(v: Value): Option<(Order, Customer, seq<OrderItem>)> {
    var idv :- Get(v, "id");
    var id :- if idv.UuidValue? then UuidFrom(idv.u) else None;
    var tv :- Get(v, "timestamp");
    var t :- if tv.Timestamp? then Some(tv.t) else None;
    var cv :- Get(v, "customer");
    var c :- CustomerFromDict(cv);
    var iv :- Get(v, "order_items");
    var its :- if iv.Array? then OrderItemsFromDicts(iv.elems, id) else None;
    Some((Order(id, t, c.id), c, its))
  }

  /** The customer dict keeps everything about the customer: decoding gives it back. */
  lemma CustomerRoundTrip(c: Customer)
    ensures CustomerFromDict(CustomerToDict(c)) == Some(c)
  {
    var v := CustomerToDict(c);
    CustomerDecode(v, Hex.UuidHex(c.id), c);
  }

  /** A customer dict decodes field by field. */
  lemma CustomerDecode(v: Value, h: string, c: Customer)
    requires Get(v, "id") == Some(Str(h)) && Hex.Parse(h) == Some(c.id)
    requires Get(v, "name") == Some(Str(c.name))
    requires Get(v, "address") == Some(OptionalStr(c.address))
    requires Get(v, "phone") == Some(OptionalStr(c.phone))
    ensures CustomerFromDict(v) == Some(c)
  {
    assert OptionalStrFrom(OptionalStr(c.address)) == Some(c.address);
    assert OptionalStrFrom(OptionalStr(c.phone)) == Some(c.phone);
  }

  /** The line-item dict keeps the product key, quantity and unit price. */
  lemma OrderItemRoundTrip(p: Product, it: OrderItem)
    requires p.id == it.productId
    ensures OrderItemFromDict(OrderItemToDict(p, it), it.orderId) == Some(it)
  {
  }

  lemma {:induction false} OrderItemsDecode(ds: seq<Value>, its: seq<OrderItem>, orderId: Uuid)
    requires |ds| == |its|
    requires forall i :: 0 <= i < |ds| ==> OrderItemFromDict(ds[i], orderId) == Some(its[i])
    ensures OrderItemsFromDicts(ds, orderId) == Some(its)
    decreases |ds|
  {
    if |ds| > 0 {
      OrderItemsDecode(ds[1..], its[1..], orderId);
      assert [its[0]] + its[1..] == its;
    }
  }

  function Items(lines: seq<Line>): (its: seq<OrderItem>)
    ensures |its| == |lines|
    ensures forall i :: 0 <= i < |lines| ==> its[i] == lines[i].item
  {
    seq(|lines|, i requires 0 <= i < |lines| => lines[i].item)
  }

  /** An order dict decodes field by field. */
  lemma OrderDecode(v: Value, o: Order, c: Customer, cv: Value, ds: seq<Value>, its: seq<OrderItem>)
    requires Get(v, "id") == Some(UuidValue(o.id)) && Get(v, "timestamp") == Some(Timestamp(o.timestamp))
    requires Get(v, "customer") == Some(cv) && CustomerFromDict(cv) == Some(c) && c.id == o.customerId
    requires Get(v, "order_items") == Some(Array(ds)) && OrderItemsFromDicts(ds, o.id) == Some(its)
    ensures OrderFromDict(v) == Some((o, c, its))
  {
  }

  /** The order dict keeps the order, its customer and every one of its line
      items in order: decoding it gives them back. */
  lemma OrderRoundTrip(l: LoadedOrder)
    requires Coherent(l)
    ensures OrderFromDict(OrderToDict(l)) == Some((l.order, l.customer, Items(l.lines)))
  {
    CustomerRoundTrip(l.customer);
    var ds := ItemDicts(l.lines);
    var its := Items(l.lines);
    forall i | 0 <= i < |ds|
      ensures OrderItemFromDict(ds[i], l.order.id) == Some(its[i])
    {
      OrderItemRoundTrip(l.lines[i].product, l.lines[i].item);
    }
    OrderItemsDecode(ds, its, l.order.id);
    OrderDictFields(l);
    OrderDecode(OrderToDict(l), l.order, l.customer, CustomerToDict(l.customer), ds, its);
  }

  /** Serialising an order of the database keeps the order, its customer and
      exactly its line items, in table order. */
  lemma SerializedOrder(db: Database, o: Order)
    requires o in db.orders
    ensures OrderFromDict(OrderToDict(Load(db, o))) ==
      Some((o, Load(db, o).customer, ItemsOf(db.items, o.id)))
  {
    var l := Load(db, o);
    OrderRoundTrip(l);
    assert Items(l.lines) == ItemsOf(db.items, o.id);
  }
}

=== FILE: sortspec.dfy ===
/** The `sort` request parameter: a comma-separated list of tokens, each a
    direction character followed by a field name, turned into ORDER BY keys. */
module SortSpec {
  import opened Wrappers
  import opened Text

  datatype Direction = Asc | Desc

  /** What an ORDER BY key can sort on: the customer's name, the aggregated
      order total, or one of the order's own columns. */
  datatype SortField = CustomerName | Total | Timestamp | Id

  datatype SortKey = SortKey(field: SortField, dir: Direction)

  /** The exceptions parsing raises, by Python exception class. */
  datatype SortError =
    | IndexOutOfRange             // IndexError: `s[0]` of an empty token
    | InvalidValue(name: string)  // ValueError(f'Invalid value for sort: {name}')
    | NoAttribute(name: string)   // AttributeError: `getattr(Order, name)` for a column Order lacks

  /** The order columns the builder allows: `status` among them, though Order has no such column. */
  const ValidColumns: set<string> := {"timestamp", "status", "id"}

  /** The Order attribute `getattr` finds for an allowed column name, if it exists. */
  function OrderColumn(name: string): Option<SortField> {
    if name == "timestamp" then Some(Timestamp)
    else if name == "id" then Some(Id)
    else None
  }

  /** The name that selects a field in a sort token. */
  function FieldName(f: SortField): string {
    match f
    case CustomerName => "customer"
    case Total => "total"
    case Timestamp => "timestamp"
    case Id => "id"
  }

  /** Resolves a field name against the closed allow-list: `customer`, `total`,
      `timestamp` and `id` resolve; `status` fails on the missing attribute;
      every other name is an invalid value. */
  function ResolveField(name: string): (r: Result<SortField, SortError>)
    ensures r.Success? <==> name in {"customer", "total", "timestamp", "id"}
    ensures r.Failure? ==> r.error == (if name == "status" then NoAttribute(name) else InvalidValue(name))
  {
    if name == "customer" then Success(CustomerName)
    else if name == "total" then Success(Total)
    else if name in ValidColumns then
      match OrderColumn(name)
      case Some(f) => Success(f)
      case None => Failure(NoAttribute(name))
    else Failure(InvalidValue(name))
  }

  /** A name resolves to a field exactly when it is that field's name. */
  lemma ResolveFieldName(name: string, f: SortField)
    ensures ResolveField(name) == Success(f) <==> name == FieldName(f)
  {
  }

  /** One token: its first character is the direction (only `-` descends) and
      the rest is the field name. */
  function ParseToken(tok: string): (r: Result<SortKey, SortError>)
    ensures |tok| == 0 ==> r == Failure(IndexOutOfRange)
    ensures |tok| > 0 ==> r.Success? == ResolveField(tok[1..]).Success?
    ensures r.Success? ==> r.value.field == ResolveField(tok[1..]).value
    ensures r.Success? ==> (r.value.dir == Desc <==> tok[0] == '-')
    ensures |tok| > 0 && r.Failure? ==> r.error == ResolveField(tok[1..]).error
  {
    if |tok| == 0 then Failure(IndexOutOfRange)
    else
      var f :- ResolveField(tok[1..]);
      Success(SortKey(f, if tok[0] == '-' then Desc else Asc))
  }

  /** Token `j` is the first that fails to parse, and it fails with `e`. */
  predicate FirstBadToken(toks: seq<string>, j: int, e: SortError) {
    && 0 <= j < |toks|
    && (forall i | 0 <= i < j :: ParseToken(toks[i]).Success?)
    && ParseToken(toks[j]) == Failure(e)
  }

  /** The tokens in order: one key per token, or the error of the first bad token. */
  function ParseTokens(toks: seq<string>): (r: Result<seq<SortKey>, SortError>)
    ensures r.Success? <==> forall i | 0 <= i < |toks| :: ParseToken(toks[i]).Success?
    ensures r.Success? ==> |r.value| == |toks| && forall i | 0 <= i < |toks| :: r.value[i] == ParseToken(toks[i]).value
    ensures r.Failure? ==> exists j :: FirstBadToken(toks, j, r.error)
  {
    if |toks| == 0 then Success([])
    else
      var first := ParseToken(toks[0]);
      var rest := ParseTokens(toks[1..]);
      if first.Failure? then
        assert FirstBadToken(toks, 0, first.error);
        Failure(first.error)
      else if rest.Failure? then
        var j :| FirstBadToken(toks[1..], j, rest.error);
        assert forall i | 0 <= i < j + 1 :: ParseToken(toks[i]).Success? by {
          forall i | 0 <= i < j + 1 ensures ParseToken(toks[i]).Success? {
            if i > 0 { assert toks[i] == toks[1..][i - 1]; }
          }
        }
        assert toks[j + 1] == toks[1..][j];
        assert FirstBadToken(toks, j + 1, rest.error);
        Failure(rest.error)
      else
        assert forall i | 1 <= i < |toks| :: toks[i] == toks[1..][i - 1];
        Success([first.value] + rest.value)
  }

  /** The ORDER BY keys a `sort` string asks for. An empty or absent `sort`
      orders nothing: the timestamp-descending fallback the builder spells out
      sits behind `if not Order`, which a class never satisfies, so it is not modelled. */
  function ParseSort(sort: string): (r: Result<seq<SortKey>, SortError>)
    ensures sort == [] ==> r == Success([])
    ensures sort != [] && r.Success? ==> var toks := Split(sort, ',');
      && |r.value| == |toks| > 0
      && forall i | 0 <= i < |toks| ::
           ParseToken(toks[i]) == Success(r.value[i]) && (r.value[i].dir == Desc <==> toks[i][0] == '-')
    ensures sort != [] ==> r == ParseTokens(Split(sort, ','))
  {
    if sort == [] then Success([])
    else
      var toks := Split(sort, ',');
      ParseTokens(toks)
  }

  /** A failing `sort` fails with the error of its first bad token. */
  lemma ParseSortFirstError(sort: string)
    requires ParseSort(sort).Failure?
    ensures exists j :: FirstBadToken(Split(sort, ','), j, ParseSort(sort).error)
  {
  }

  /** A token without a sign loses its first letter: `total` names field `otal`. */
  lemma UnsignedTokenRejected()
    ensures ParseSort("total") == Failure(InvalidValue("otal"))
  {
    assert Split("total", ',') == ["total"] by {
      SplitJoin(["total"], ',');
    }
    assert "total"[1..] == "otal";
  }

  /** An empty token, as a trailing comma leaves, fails on its first character. */
  lemma TrailingCommaRejected()
    ensures ParseSort("+id,") == Failure(IndexOutOfRange)
  {
    assert Split("+id,", ',') == ["+id", ""] by {
      assert Join(["+id", ""], ',') == "+id,";
      SplitJoin(["+id", ""], ',');
    }
    assert "+id"[1..] == "id";
  }

  /** `status` is allowed by name but Order has no such attribute. */
  lemma StatusRejected()
    ensures ParseSort("-status") == Failure(NoAttribute("status"))
  {
    assert Split("-status", ',') == ["-status"] by {
      SplitJoin(["-status"], ',');
    }
    assert "-status"[1..] == "status";
  }

  /** A leading minus asks for descending order. */
  lemma DescendingTotal()
    ensures ParseSort("-total") == Success([SortKey(Total, Desc)])
  {
    assert Split("-total", ',') == ["-total"] by {
      SplitJoin(["-total"], ',');
    }
    assert "-total"[1..] == "total";
    assert ParseToken("-total") == Success(SortKey(Total, Desc));
    var r := ParseTokens(["-total"]);
    assert r.Success? && |r.value| == 1 && r.value[0] == SortKey(Total, Desc);
    assert r.value == [SortKey(Total, Desc)];
  }

  /** Two tokens joined by a comma give two keys, in token order. */
  lemma TwoTokens(a: string, b: string, ka: SortKey, kb: SortKey)
    requires ',' !in a && ',' !in b
    requires ParseToken(a) == Success(ka) && ParseToken(b) == Success(kb)
    ensures ParseSort(a + [','] + b) == Success([ka, kb])
  {
    assert Join([a, b], ',') == a + [','] + b by {
      assert [a, b][1..] == [b];
    }
    SplitJoin([a, b], ',');
    var r := ParseTokens([a, b]);
    assert r.value == [ka, kb];
  }

  /** The canonical token for a key: an explicit sign, then the field name. */
  function RenderKey(k: SortKey): string {
    [if k.dir == Desc then '-' else '+'] + FieldName(k.field)
  }

  /** A `sort` string asking for the given keys. */
  function RenderSort(keys: seq<SortKey>): string {
    if |keys| == 0 then [] else Join(seq(|keys|, i requires 0 <= i < |keys| => RenderKey(keys[i])), ',')
  }

  /** Every list of keys can be asked for: parsing its rendering gives it back. */
  lemma ParseRenderSort(keys: seq<SortKey>)
    ensures ParseSort(RenderSort(keys)) == Success(keys)
  {
    if |keys| > 0 {
      var toks := seq(|keys|, i requires 0 <= i < |keys| => RenderKey(keys[i]));
      forall i | 0 <= i < |toks|
        ensures ',' !in toks[i] && ParseToken(toks[i]) == Success(keys[i])
      {
        assert toks[i][1..] == FieldName(keys[i].field);
      }
      SplitJoin(toks, ',');
      assert RenderSort(keys) != [] by {
        assert |RenderSort(keys)| >= |toks[0]| > 0 by { JoinLength(toks, ','); }
      }
      assert ParseTokens(toks).value == keys;
    }
  }

  lemma {:induction false} JoinLength(parts: seq<string>, sep: char)
    requires |parts| > 0
    ensures |Join(parts, sep)| >= |parts[0]|
  {
  }
}

=== FILE: sqllike.dfy ===
/** The `ILIKE '%…%'` test the search filter applies to customer and product names. */
module SqlLike {
  import opened Text

  /** SQL `LIKE` with no escape character: `%` matches any run of characters,
      `_` exactly one character, and every other pattern character itself. */
  predicate Like(s: string, p: string)
    decreases |s| + |p|
  {
    if |p| == 0 then |s| == 0
    else if p[0] == '%' then Like(s, p[1..]) || (|s| > 0 && Like(s[1..], p))
    else |s| > 0 && (p[0] == '_' || p[0] == s[0]) && Like(s[1..], p[1..])
  }

  /** `ILIKE`: `LIKE` once both sides are folded to lower case. */
  predicate ILike(s: string, p: string) {
    Like(Lower(s), Lower(p))
  }

  /** The search text has no character that `LIKE` reads as a wildcard. */
  predicate NoWildcards(n: string) {
    '%' !in n && '_' !in n
  }

  /** The pattern `%search%` the query builder wraps around the search text. */
  function Surround(search: string): (p: string)
    ensures |p| == |search| + 2 && p[0] == '%' && p[|p| - 1] == '%'
    ensures p[1..|p| - 1] == search
  {
    ['%'] + search + ['%']
  }

  lemma {:induction false} PercentMatchesAll(s: string)
    ensures Like(s, ['%'])
    decreases |s|
  {
    assert ['%'][1..] == [];
    if |s| > 0 {
      PercentMatchesAll(s[1..]);
    }
  }

  /** With no wildcard in `n`, the pattern `n%` matches exactly the strings that start with `n`. */
  lemma {:induction false} PrefixPattern(s: string, n: string)
    requires NoWildcards(n)
    ensures Like(s, n + ['%']) <==> IsPrefix(n, s)
    decreases |n|
  {
    if |n| == 0 {
      assert n + ['%'] == ['%'];
      PercentMatchesAll(s);
    } else {
      var p := n + ['%'];
      assert p[0] == n[0] && p[1..] == n[1..] + ['%'];
      PrefixPattern(if |s| > 0 then s[1..] else s, n[1..]);
      if |s| > 0 {
        assert IsPrefix(n, s) <==> n[0] == s[0] && IsPrefix(n[1..], s[1..]) by {
          if n[0] == s[0] && IsPrefix(n[1..], s[1..]) {
            assert s[..|n|] == [s[0]] + s[1..][..|n| - 1];
            assert n == [n[0]] + n[1..];
          }
          if IsPrefix(n, s) {
            assert s[1..][..|n| - 1] == s[..|n|][1..];
          }
        }
      }
    }
  }

  /** A leading `%` lets the rest of the pattern match any suffix. */
  lemma {:induction false} LeadingPercent(s: string, q: string)
    ensures Like(s, ['%'] + q) <==> exists i :: 0 <= i <= |s| && Like(s[i..], q)
    decreases |s|
  {
    var p := ['%'] + q;
    assert p[0] == '%' && p[1..] == q;
    assert s[0..] == s;
    if |s| > 0 {
      LeadingPercent(s[1..], q);
      if Like(s[1..], p) {
        var i :| 0 <= i <= |s| - 1 && Like(s[1..][i..], q);
        assert s[1..][i..] == s[i + 1..];
      }
      if exists i :: 0 <= i <= |s| && Like(s[i..], q) {
        var i :| 0 <= i <= |s| && Like(s[i..], q);
        if i > 0 {
          assert s[1..][i - 1..] == s[i..];
        }
      }
    }
  }

  /** For wildcard-free `n`, `LIKE '%n%'` is exactly substring occurrence. */
  lemma SurroundIsOccurs(s: string, n: string)
    requires NoWildcards(n)
    ensures Like(s, Surround(n)) <==> Occurs(s, n)
  {
    assert Surround(n) == ['%'] + (n + ['%']);
    LeadingPercent(s, n + ['%']);
    forall i | 0 <= i <= |s|
      ensures Like(s[i..], n + ['%']) <==> IsPrefix(n, s[i..])
    {
      PrefixPattern(s[i..], n);
    }
  }

  lemma LowerKeepsNoWildcards(n: string)
    requires NoWildcards(n)
    ensures NoWildcards(Lower(n))
  {
    forall i | 0 <= i < |n|
      ensures Lower(n)[i] != '%' && Lower(n)[i] != '_'
    {
      assert n[i] != '%' && n[i] != '_';
    }
  }

  /** The search filter's `ILIKE '%search%'`, for wildcard-free search text, is a
      case-insensitive substring test. */
  lemma {:induction false} ILikeSurroundIsOccurs(s: string, search: string)
    requires NoWildcards(search)
    ensures ILike(s, Surround(search)) <==> Occurs(Lower(s), Lower(search))
  {
    assert Lower(Surround(search)) == Surround(Lower(search));
    LowerKeepsNoWildcards(search);
    SurroundIsOccurs(Lower(s), Lower(search));
  }
}

=== FILE: text.dfy ===
/** Strings as the query code uses them: ASCII case folding, substring
    occurrence, Python's `str.split` on one separator, and code-point order. */
module Text {

  /** Folds one ASCII upper-case letter to lower case; every other character is kept. */
  function LowerChar(c: char): char {
    if 'A' <= c <= 'Z' then (c as int - 'A' as int + 'a' as int) as char else c
  }

  function Lower(s: string): (r: string)
    ensures |r| == |s|
    ensures forall i :: 0 <= i < |s| ==> r[i] == LowerChar(s[i])
  {
    seq(|s|, i requires 0 <= i < |s| => LowerChar(s[i]))
  }

  /** `p` is a prefix of `s`. */
  predicate IsPrefix(p: string, s: string) {
    |p| <= |s| && s[..|p|] == p
  }

  /** `n` occurs in `s` as a contiguous substring. */
  ghost predicate Occurs(s: string, n: string) {
    exists i :: 0 <= i <= |s| && IsPrefix(n, s[i..])
  }

  /** Python's `sep.join(parts)` for a one-character separator. */
  function Join(parts: seq<string>, sep: char): string
    requires |parts| > 0
  {
    if |parts| == 1 then parts[0] else parts[0] + [sep] + Join(parts[1..], sep)
  }

  /** Python's `s.split(sep)` for a one-character separator: never empty,
      and an empty piece for each pair of adjacent separators or a separator at either end. */
  function Split(s: string, sep: char): (parts: seq<string>)
    ensures |parts| > 0
    ensures forall i :: 0 <= i < |parts| ==> sep !in parts[i]
    ensures Join(parts, sep) == s
    decreases |s|
  {
    if |s| == 0 then [[]]
    else
      var rest := Split(s[1..], sep);
      if s[0] == sep then
        assert ([[]] + rest)[1..] == rest;
        [[]] + rest
      else
        var parts := [[s[0]] + rest[0]] + rest[1..];
        assert parts[1..] == rest[1..];
        assert Join(parts, sep) == [s[0]] + Join(rest, sep) by {
          if |rest| > 1 {
            assert Join(rest, sep) == rest[0] + [sep] + Join(rest[1..], sep);
          }
        }
        assert s == [s[0]] + s[1..];
        parts
  }

  lemma {:induction false} SplitPrefix(a: string, t: string, sep: char)
    requires sep !in a
    ensures Split(a + t, sep) == [a + Split(t, sep)[0]] + Split(t, sep)[1..]
    decreases |a|
  {
    if |a| == 0 {
      assert a + t == t;
      var r := Split(t, sep);
      assert a + r[0] == r[0];
      assert [r[0]] + r[1..] == r;
    } else {
      assert (a + t)[0] == a[0];
      assert (a + t)[1..] == a[1..] + t;
      SplitPrefix(a[1..], t, sep);
      assert [a[0]] + (a[1..] + Split(t, sep)[0]) == a + Split(t, sep)[0];
    }
  }

  /** `Split` inverts `Join` when no part contains the separator. */
  lemma {:induction false} SplitJoin(parts: seq<string>, sep: char)
    requires |parts| > 0
    requires forall i :: 0 <= i < |parts| ==> sep !in parts[i]
    ensures Split(Join(parts, sep), sep) == parts
    decreases |parts|
  {
    if |parts| == 1 {
      SplitPrefix(parts[0], [], sep);
      assert parts[0] + [] == parts[0];
    } else {
      var t := Join(parts[1..], sep);
      SplitJoin(parts[1..], sep);
      assert ([sep] + t)[1..] == t;
      var tail := Split([sep] + t, sep);
      assert tail == [[]] + parts[1..];
      assert tail[0] == [] && tail[1..] == parts[1..];
      assert Join(parts, sep) == parts[0] + ([sep] + t);
      SplitPrefix(parts[0], [sep] + t, sep);
      assert parts[0] + tail[0] == parts[0];
      assert [parts[0]] + parts[1..] == parts;
    }
  }

  /** Strict lexicographic order on code points, the order an ORDER BY on a
      text column gives under a binary collation. */
  predicate Less(a: string, b: string) {
    if |a| == 0 then |b| > 0
    else if |b| == 0 then false
    else a[0] < b[0] || (a[0] == b[0] && Less(a[1..], b[1..]))
  }

  lemma {:induction false} LessTransitive(a: string, b: string, c: string)
    requires Less(a, b) && Less(b, c)
    ensures Less(a, c)
  {
    if |a| > 0 && |b| > 0 && |c| > 0 && a[0] == b[0] == c[0] {
      LessTransitive(a[1..], b[1..], c[1..]);
    }
  }

  lemma {:induction false} LessTrichotomy(a: string, b: string)
    ensures a == b || Less(a, b) || Less(b, a)
  {
    if |a| > 0 && |b| > 0 && a[0] == b[0] {
      LessTrichotomy(a[1..], b[1..]);
      if a[1..] == b[1..] {
        assert a == [a[0]] + a[1..] && b == [b[0]] + b[1..];
      }
    }
  }

  lemma {:induction false} LessAsymmetric(a: string, b: string)
    requires Less(a, b)
    ensures !Less(b, a)
  {
    if |a| > 0 && |b| > 0 && a[0] == b[0] {
      LessAsymmetric(a[1..], b[1..]);
    }
  }
}

=== FILE: wrappers.dfy ===
/** Failure-carrying datatypes used across the model: Python's exceptions become
    `Failure` values, and a missing row becomes `None`. */
module Wrappers {

  datatype Option<+T> = None | Some(value: T) {

    predicate IsFailure() {
      None?
    }

    function PropagateFailure<U>(): Option<U>
      requires None?
    {
      None
    }

    function Extract(): T
      requires Some?
    {
      value
    }
  }

  datatype Result<+R, +E> = Success(value: R) | Failure(error: E) {

    predicate IsFailure() {
      Failure?
    }

    function PropagateFailure<U>(): Result<U, E>
      requires Failure?
    {
      Failure(error)
    }

    function Extract(): R
      requires Success?
    {
      value
    }
  }
}
